=== FILE: README.md ===
# Subdivision root finding: the combinatorial and geometric core

This project models, in Dafny, the core of `yroots/subdivision.py`, a root finder. The finder
approximates functions on a box by Chebyshev polynomials. When an approximation is good enough it
solves for the zeros; otherwise it cuts the box into smaller boxes and recurses. The model covers
the parts of that loop that decide *where* to look and *what* to report:

- **`transform`** — the affine map from the reference box [-1, 1]^n onto a box [a, b]. Its inverse
  and a round trip are proved.
- **`chebyshev_block_copy`** — the even extension of a value block from (deg+1)^n grid points to
  (2 deg)^n. Every output cell is written by exactly one of the 2^n blocks. It receives the
  mirrored value, so none of the uninitialised `np.empty` contents survives.
- **`get_subintervals`** — the 2^k children of a box, split at the fixed ratio
  `RAND = 0.5139303900908738` along the chosen axes, in `itertools.product` order. The children
  stay inside the parent and together cover it. They are the `transform` images of the children
  of the reference box. With checks enabled, the result is always an order-preserving
  subsequence of the children. It is present whenever no check returns a mask longer than the
  list it judges. For checks that judge each child on its own, the survivors are exactly the
  children that every check keeps for every polynomial, in their original order.
- **The sign-change flags** of `interval_approximate_nd` (the `return_bools` branch). Every grid
  index lies in exactly one orthant block, and a block is flagged exactly when its values do not
  share one strict sign. Orthant block k corresponds to child k of the reference box [-1, 1]^n
  split on every axis: every grid point of block k lies in child k. This holds because the split
  literal 0.027860780181747646 and 2 RAND - 1 are the same double.
- **`good_zeros_nd` and `good_zeros_1d`** — the filters that keep nearly real zeros in (or near)
  the unit box. Each is one mask selection: the passing zeros in their order, each occurrence
  kept. Every reported zero, mapped back onto [a, b], is within the stated tolerance of
  the box.
- **`pick_stable_dim`** — the first axis along which some permutation pairs the corner
  coefficients with distinct functions, using only corners of magnitude at least `tol`.
  `itertools.permutations` is modelled by an enumeration shown to list exactly the rearrangements.
- **`mon_combos_limited`** — lists exactly the multi-indices of one total degree that fit a shape,
  in lexicographic order and without repeats.
- **`trim_coeffs`** — lowers each function's degree one layer at a time while the accumulated
  absolute mass of the removed coefficients stays below `approx_tol`. The method proves:
  - the loop terminates;
  - it returns the `pick_stable_dim` verdict on the final tensors;
  - every trimmed tensor is the original with exactly the removed layers zeroed and the shape cut
    to the final degree;
  - every reported error is the original mass of those layers.
- **The 1-D bisection** of `subdivision_solve_1d`.

Reals stand for floating-point numbers throughout. Tensors are a shape plus a total function from
multi-indices to reals (`Tensors.Tensor`). The orthant loop `product([False, True], repeat=n)` is
`Orthants.Product(n)`, and `Orthants.Rank` gives a bit vector's position in it.

## Model

| member | source | states |
|---|---|---|
| Affine.Transform | yroots/subdivision.py:193-210 | The image of x lies (b-a)(x+1)/2 above a and (b-a)(1-x)/2 below b; -1 maps to a, 1 maps to b, and [-1, 1] maps into [a, b] when a <= b |
| Affine.TransformMonotone | yroots/subdivision.py:193-210 | For a <= b the map preserves order |
| Affine.InverseTransform | yroots/subdivision.py:193-210 | The inverse map from [a, b] to [-1, 1] satisfies (b-a) x = 2y - (a+b) and sends a to -1 and b to 1 |
| Affine.TransformRoundTrip | yroots/subdivision.py:193-210 | Transform followed by its inverse, and the inverse followed by transform, are both the identity for a != b |
| Affine.TransformPoint | yroots/subdivision.py:193-210 | A point of [-1, 1]^n lands in the box [a, b] (when every a <= b), and the inverse map recovers every coordinate of a non-degenerate axis |
| Affine.Bisect | yroots/subdivision.py:733-735 | The two halves start at a and end at b, meet at the midpoint transform(0, a, b), have equal widths summing to b - a, and the midpoint lies in [a, b] |
| Affine.BisectCovers | yroots/subdivision.py:733-735 | Every point of [a, b] lies in one of the two halves |
| BlockCopy.ChebyshevBlockCopy | yroots/subdivision.py:228-240 | The output has shape (2 deg)^n; every output cell holds the block value at its mirror index (j on axes with j <= deg, 2 deg - j beyond), whatever the initial contents |
| BlockCopy.CellCopiedOnce | yroots/subdivision.py:232-239 | A block writes cell j exactly when its flips are those of j, and the entry it copies there is j's mirror index |
| BlockCopy.BlockCopyWritesOnce | yroots/subdivision.py:232-239 | Every output cell is written by exactly one of the 2^n blocks of the product loop |
| Orthants.ProductComplete | yroots/subdivision.py:374 | Every bit vector of length n occurs in the product sequence, at its rank |
| Orthants.ProductDistinct | yroots/subdivision.py:374 | Distinct positions of the product sequence hold distinct bit vectors |
| Subintervals.Child | yroots/subdivision.py:369-380 | On a split axis a True bit gives [a, a + RAND (b-a)] and a False bit gives [a + RAND (b-a), b]; axes not split are copied |
| Subintervals.Children | yroots/subdivision.py:374-380 | There are 2^k children, child p being the child of the p-th product subset |
| Subintervals.ChildrenInsideParent | yroots/subdivision.py:369-380 | Every child of an ordered box is an ordered box inside the parent |
| Subintervals.ChildrenCoverParent | yroots/subdivision.py:369-380 | Every point of the parent lies in some child |
| Subintervals.ReferenceChildrenTransform | yroots/subdivision.py:382-384 | Child p of [a, b] is the transform image of child p of [-1, 1]^n, corner by corner |
| Subintervals.GetSubintervals | yroots/subdivision.py:352-399 | Without checks: exactly the children. With any checks: an order-preserving subsequence of the children (the children at strictly increasing positions), so at most 2^k boxes with no repeats, or None when a mask is longer than the list it masks (an IndexError in the source); when no check ever returns a mask longer than the list it judges, a result is always returned |
| Subintervals.Kept | yroots/subdivision.py:388-397 | The masked list keeps only given positions, and keeps them in increasing order when they were |
| Subintervals.KeptMembers | yroots/subdivision.py:390-393 | A position survives exactly when the mask entry paired with it is True |
| Subintervals.PolyLoop | yroots/subdivision.py:386-397 | The polynomial loop keeps a subset of the positions, in increasing order when they were, and fails only when some mask is longer than the list it masks |
| Subintervals.CheckLoop | yroots/subdivision.py:385-397 | The same for the loop over the checks around it |
| Subintervals.ApplyMask | yroots/subdivision.py:387-397 | The mask fails (IndexError) exactly when it is longer than the list it masks; otherwise a position survives exactly when its paired mask entry is True, and increasing positions stay increasing |
| Subintervals.CheckedSubintervalsExact | yroots/subdivision.py:382-399 | For checks that judge each child on its own, the result is the children whose reference child every check keeps for every polynomial, in product order |
| SignFlags.CountAboveDecreasing | yroots/subdivision.py:319 | On decreasing grid values, the split position counts exactly the grid points above the split |
| SignFlags.OrthantPartition | yroots/subdivision.py:321-327 | A grid index lies in the block of product position k exactly when k is the rank of its sides |
| SignFlags.OrthantGeometry | yroots/subdivision.py:318-327 | A True axis of a block holds the grid points at or below the split, a False axis those above it |
| SignFlags.GridMembers | yroots/subdivision.py:329 | The grid enumeration lists exactly the indices that fit the shape |
| SignFlags.ChangeSign | yroots/subdivision.py:315-330 | One flag per orthant block |
| SignFlags.OrthantInReferenceChild | yroots/subdivision.py:318-327 | A grid point in orthant block k lies in child k of the reference box split on every axis |
| SignFlags.ChangeSignMeaning | yroots/subdivision.py:315-330 | Block k is unflagged exactly when all its values are positive or all are negative |
| SignFlags.UniformBlockNoFlags | yroots/subdivision.py:329-330 | Values of one strict sign flag no block |
| GoodZeros.GoodZeros1d | yroots/subdivision.py:677-694 | The two selections are one selection: the zeros whose modulus is at most 1 and whose imaginary part is below imag_tol, in their order, each occurrence kept |
| GoodZeros.FilterSelects | yroots/subdivision.py:692-693 | A mask selection is the list at the increasing sequence of exactly those positions whose entry passes, so order and repeats are kept |
| GoodZeros.SelectionIsFilter | yroots/subdivision.py:692-693 | Conversely, any list taken at increasing positions that are exactly the passing ones is the mask selection |
| GoodZeros.Roots1d | yroots/subdivision.py:726-729 | One root per zero that good_zeros_1d keeps |
| GoodZeros.Roots1dInverse | yroots/subdivision.py:726-729 | Root t is the t-th kept zero mapped onto [a, b]: for a != b the inverse transform of its real part is that zero's real part, and its imaginary part is that zero's scaled by (b-a)/2 |
| GoodZeros.Roots1dInInterval | yroots/subdivision.py:726-729 | Every reported 1-D root has its real part in [a, b] and imaginary part at most (b-a) imag_tol / 2 |
| GoodZeros.GoodZerosNd | yroots/subdivision.py:437-454 | No more rows come out than went in |
| GoodZeros.GoodZerosNdSelects | yroots/subdivision.py:452-454 | The two selections are one selection: a row survives exactly when every coordinate is nearly real and has modulus at most 1 + real_tol |
| GoodZeros.GoodZerosNdInBox | yroots/subdivision.py:452-454 | Every coordinate of a surviving zero lies in [-(1+real_tol), 1+real_tol] |
| GoodZeros.DivisionRoots | yroots/subdivision.py:536-540 | One root per row that good_zeros_nd keeps (none for no zeros), each with the box's dimension |
| GoodZeros.DivisionRootsInverse | yroots/subdivision.py:536-540 | Root t is the t-th kept row mapped onto [a, b]: on every non-degenerate axis the inverse transform of its coordinate i recovers coordinate i of that row |
| GoodZeros.DivisionRootsInBox | yroots/subdivision.py:536-540 | Every reported root lies in [a, b] widened by (b-a) real_tol / 2 on each axis |
| MultiIndex.MonomialsOfDegree | yroots/subdivision.py:639-675 | The enumeration lists exactly the indices of total degree deg that fit the shape, without repeats, in lexicographic order, and nothing above the top degree |
| MultiIndex.MonCombosLimited | yroots/subdivision.py:662-675 | Every listed index keeps the fixed prefix, sums to the remaining degree from cur_dim on, and fits the shape |
| MultiIndex.MonCombosComplete | yroots/subdivision.py:662-675 | Every completion of the prefix that fits the shape is listed |
| MultiIndex.MonCombosSorted | yroots/subdivision.py:671-675 | The listed indices are strictly increasing in lexicographic order |
| MultiIndex.MonCombosClip | yroots/subdivision.py:592-593 | Cutting every axis to a bound above the requested degree does not change the enumeration |
| StableDim.PermsComplete | yroots/subdivision.py:629 | Every rearrangement of the sequence is generated |
| StableDim.Perms | yroots/subdivision.py:629 | Every generated sequence is a rearrangement of the input |
| StableDim.PermPasses | yroots/subdivision.py:630-634 | The inner loop with its break passes exactly when no corner it pairs is smaller than tol |
| StableDim.AnyValid | yroots/subdivision.py:629-636 | The outer loop, returning at the first passing permutation, succeeds exactly when some listed permutation is valid |
| StableDim.SearchMatchesStable | yroots/subdivision.py:613-636 | The search accepts axis d exactly when some permutation of 0..n-1 pairs the corner kinds with functions whose corners are all at least tol |
| StableDim.PickStableDim | yroots/subdivision.py:611-637 | The result is -1 or an axis; a returned axis is stable and every earlier axis is not; -1 means no axis is stable |
| Trim.TrimStep | yroots/subdivision.py:576-596 | A function is trimmed exactly when its degree is at least 2, its layer is non-empty and the running error plus the layer's mass stays below approx_tol. A trim lowers the degree by one, cuts the shape, adds the mass to the error and zeroes that layer. Otherwise the function is unchanged |
| Trim.TopDegree | yroots/subdivision.py:570 | The starting degree is the largest total degree of any index that fits the shape, reached at the corner index |
| Trim.TrimStepPreserves | yroots/subdivision.py:576-596 | One step keeps the trimmed tensor equal to the original with exactly the removed layers zeroed, and the error equal to the original mass of those layers |
| Trim.PassPreserves | yroots/subdivision.py:573-597 | A pass keeps that description and never raises the sum of degrees. It lowers the sum when it changes anything and leaves the tensors alone when it does not |
| Trim.TrimCoeffs | yroots/subdivision.py:553-609 | The result has one trimmed tensor, degree and error per function; the axis is pick_stable_dim of the returned tensors; each tensor is the original with its top layers zeroed and cut away, and each error is their mass, below approx_tol; -1 means no function can be trimmed further (a further pass changes nothing); every function the first pass can trim ends below the starting degree |

## Left out

- Plotting and printing in the drivers are not modelled; they do not affect the results.
- The Chebyshev approximation itself (`interval_approximate_nd`/`_1d` apart from the sign flags,
  `full_cheb_approximate`, the FFT, the residual gate) is not modelled. Its floating-point
  numerics are outside what a proof over reals can say.
- The recursive drivers `solve`, `subdivision_solve_nd` and `subdivision_solve_1d` are left out,
  apart from three steps: the bisection, the root mapping after a division solve, and the 1-D
  root mapping after `divCheb`/`multCheb`. The drivers call the division and multiplication
  solvers, which are not part of this model.
- The linear shortcut's bounds test after its `return` cannot be reached, so it is not modelled.
- `interval_results` is a diagnostic log of discarded boxes and is not modelled. The branch that
  appends to it otherwise behaves as in the source.
- Subintervals.SubintervalCheck: the checks are opaque functions of the model. The checks the
  source passes in (`linear_check`, `quadratic_check1`, `quadratic_check2`) are not part of this
  model. They receive the whole flag vector and the current list of children. The
  order-preserving subsequence result holds for any checks. The exact characterisation
  (`Subintervals.CheckedSubintervalsExact`) assumes each check judges each child on its own.
- Subintervals.GetSubintervals: requires the split axes to be in range and distinct. The source
  always passes `np.arange(dim)`; repeated axes would fall into numpy's fancy-index assignment
  semantics.
- SignFlags.ChangeSign: the grid values `cos(k pi / deg)` are a parameter. They are assumed to
  decrease (`SignFlags.Decreasing`). `SignFlags.OrthantInReferenceChild` also assumes they lie in
  [-1, 1].
- The two constants `RAND` and the split literal are modelled as the exact binary values of
  the source's doubles: 2314536713307633 / 2^52 and 62736899622385 / 2^51. Their decimal
  spellings are not used. With these values, 2 RAND - 1 is exactly the split literal
  (`SignFlags.SplitIsCut`); in doubles that computation needs no rounding.
- BlockCopy.ChebyshevBlockCopy: the uninitialised `np.empty` contents are a parameter. The
  contract shows that they never reach the result.
- Trim.TrimCoeffs: requires as many functions as dimensions (`degrees` has one entry per
  dimension but is indexed per function) and n >= 1 positive axes. It returns the trimmed tensors
  themselves rather than `MultiCheb` wrappers. The source also overwrites the caller's list
  entries in place; the model returns new values instead.
- GoodZeros.GoodZerosNd: complex moduli are compared through their squares, so no square root is
  modelled.
- Floating-point rounding is not modelled anywhere: reals are exact. Where the source compares
  against a tolerance, the model compares the exact values.

=== FILE: affine.dfy ===
/** The affine map from the reference interval [-1, 1] onto [a, b] (`transform`) and the
    one-dimensional bisection step of the 1-D driver. */
module Affine {

  /** The product of two non-negative reals is non-negative. */
  lemma NonNegProduct(x: real, y: real)
    requires x >= 0.0 && y >= 0.0
    ensures x * y >= 0.0
  {
  }

  /** Distances from the image of x to both ends of [a, b]. */
  lemma AffineOffsets(x: real, a: real, b: real)
    ensures ((b - a) * x + (b + a)) / 2.0 - a == (b - a) * (x + 1.0) / 2.0
    ensures b - ((b - a) * x + (b + a)) / 2.0 == (b - a) * (1.0 - x) / 2.0
  {
    assert (b - a) * (x + 1.0) == (b - a) * x + (b - a);
    assert (b - a) * (1.0 - x) == (b - a) - (b - a) * x;
  }

  /** `transform(x, a, b) = ((b - a) x + (b + a)) / 2`. */
  function Transform(x: real, a: real, b: real): (y: real)
    ensures y - a == (b - a) * (x + 1.0) / 2.0
    ensures b - y == (b - a) * (1.0 - x) / 2.0
    ensures x == -1.0 ==> y == a
    ensures x == 1.0 ==> y == b
    ensures a <= b && -1.0 <= x <= 1.0 ==> a <= y <= b
  {
    AffineOffsets(x, a, b);
    if a <= b && -1.0 <= x <= 1.0 then
      NonNegProduct(b - a, x + 1.0);
      NonNegProduct(b - a, 1.0 - x);
      ((b - a) * x + (b + a)) / 2.0
    else
      ((b - a) * x + (b + a)) / 2.0
  }

  /** The map is monotone when a <= b. */
  lemma TransformMonotone(x: real, z: real, a: real, b: real)
    requires a <= b && x <= z
    ensures Transform(x, a, b) <= Transform(z, a, b)
  {
    NonNegProduct(b - a, z - x);
    assert (b - a) * (z + 1.0) - (b - a) * (x + 1.0) == (b - a) * (z - x);
  }

  /** The inverse map from [a, b] back to [-1, 1], defined for a non-degenerate interval. */
  function InverseTransform(y: real, a: real, b: real): (x: real)
    requires a != b
    ensures (b - a) * x == 2.0 * y - (b + a)
    ensures y == a ==> x == -1.0
    ensures y == b ==> x == 1.0
  {
    var x := (2.0 * y - (b + a)) / (b - a);
    assert (b - a) * (x + 1.0) == (b - a) * x + (b - a);
    assert (b - a) * (x - 1.0) == (b - a) * x - (b - a);
    if y == a then CancelFactor(b - a, x + 1.0); x
    else if y == b then CancelFactor(b - a, x - 1.0); x
    else x
  }

  /** A product with a non-zero factor vanishes only when the other factor does. */
  lemma CancelFactor(d: real, e: real)
    requires d != 0.0 && d * e == 0.0
    ensures e == 0.0
  {
  }

  /** Transforming and transforming back gives the original point, in both orders. */
  lemma {:induction false} TransformRoundTrip(x: real, y: real, a: real, b: real)
    requires a != b
    ensures InverseTransform(Transform(x, a, b), a, b) == x
    ensures Transform(InverseTransform(y, a, b), a, b) == y
  {
    var d := b - a;
    var y0 := Transform(x, a, b);
    var x0 := InverseTransform(y0, a, b);
    assert d * (x + 1.0) == d * x + d;
    assert 2.0 * y0 - (b + a) == d * x;
    assert d * x0 == 2.0 * y0 - (b + a);
    assert d * (x0 - x) == 0.0;
    CancelFactor(d, x0 - x);
    var x1 := InverseTransform(y, a, b);
    assert 2.0 * Transform(x1, a, b) == d * x1 + (b + a);
  }

  /** `transform` applied coordinate-wise to a point of the reference box: a point of
      [-1, 1]^n lands in the box [a, b], and the map is undone axis by axis. */
  function TransformPoint(x: seq<real>, a: seq<real>, b: seq<real>): (y: seq<real>)
    requires |x| == |a| == |b|
    ensures |y| == |x|
    ensures forall i :: 0 <= i < |y| ==> y[i] == Transform(x[i], a[i], b[i])
    ensures (forall i :: 0 <= i < |x| ==> a[i] <= b[i] && -1.0 <= x[i] <= 1.0)
            ==> forall i :: 0 <= i < |y| ==> a[i] <= y[i] <= b[i]
    ensures forall i :: 0 <= i < |y| && a[i] != b[i] ==> InverseTransform(y[i], a[i], b[i]) == x[i]
  {
    var y := seq(|x|, i requires 0 <= i < |x| => Transform(x[i], a[i], b[i]));
    assert forall i :: 0 <= i < |y| && a[i] != b[i] ==> InverseTransform(y[i], a[i], b[i]) == x[i] by {
      forall i | 0 <= i < |y| && a[i] != b[i]
        ensures InverseTransform(y[i], a[i], b[i]) == x[i]
      {
        TransformRoundTrip(x[i], y[i], a[i], b[i]);
      }
    }
    y
  }

  datatype Interval = Interval(lo: real, hi: real)

  /** The bisection of the 1-D driver: `div_length = (b - a) / 2`, then the halves
      `[a, b - div_length]` and `[a + div_length, b]`. */
  function Bisect(a: real, b: real): (halves: (Interval, Interval))
    ensures halves.0.lo == a && halves.1.hi == b
    ensures halves.0.hi == halves.1.lo == Transform(0.0, a, b)
    ensures halves.0.hi - halves.0.lo == halves.1.hi - halves.1.lo
    ensures (halves.0.hi - halves.0.lo) + (halves.1.hi - halves.1.lo) == b - a
    ensures a <= b ==> a <= halves.0.hi <= b
  {
    var divLength := (b - a) / 2.0;
    (Interval(a, b - divLength), Interval(a + divLength, b))
  }

  /** Bisection loses no point: every point of [a, b] lies in one of the two halves. */
  lemma BisectCovers(a: real, b: real, x: real)
    requires a <= x <= b
    ensures var h := Bisect(a, b);
            (h.0.lo <= x <= h.0.hi) || (h.1.lo <= x <= h.1.hi)
  {
  }
}

=== FILE: block_copy.dfy ===
/** `chebyshev_block_copy`: the (deg+1)^n block of function values at Chebyshev extrema is
    copied into a (2 deg)^n tensor that extends it evenly about index deg on every axis, one
    block of the product([False, True], repeat=n) loop at a time. */
module BlockCopy {
  import opened Orthants
  import opened MultiIndex
  import opened Tensors

  /** The pair of slices one block assigns on one axis: `count` output positions from
      `outStart` receive the block entries `srcStart + k * srcStep`, k < count. */
  datatype AxisCopy = AxisCopy(outStart: nat, count: nat, srcStart: int, srcStep: int)

  /** What one block copies along one axis. Unflipped, the deg + 1 block entries go in order
      to output positions 0 .. deg. Flipped, the interior entries deg - 1 down to 1 go to output
      positions deg + 1 .. 2 deg - 1, reversed. With deg = 0 the output axis is empty and
      nothing is written. */
  function AxisPiece(flip: bool, deg: nat): AxisCopy
  {
    if flip then AxisCopy(deg + 1, if deg >= 1 then deg - 1 else 0, deg - 1, -1)
    else AxisCopy(0, if deg >= 1 then deg + 1 else 0, 0, 1)
  }

  /** Output cell j is assigned by the block with these flips. */
  predicate Covers(flips: seq<bool>, j: seq<nat>, deg: nat)
  {
    |j| == |flips| &&
    forall i :: 0 <= i < |j| ==>
      AxisPiece(flips[i], deg).outStart <= j[i]
      < AxisPiece(flips[i], deg).outStart + AxisPiece(flips[i], deg).count
  }

  function SourceEntry(p: AxisCopy, ji: nat): nat
  {
    var s := p.srcStart + (ji - p.outStart) * p.srcStep;
    if s >= 0 then s else 0
  }

  /** The block index the slices pair with output cell j. */
  function Source(flips: seq<bool>, j: seq<nat>, deg: nat): seq<nat>
    requires |j| == |flips|
  {
    seq(|j|, i requires 0 <= i < |j| => SourceEntry(AxisPiece(flips[i], deg), j[i]))
  }

  /** One block's assignment: every output cell the block covers takes the block entry paired
      with it, and every other cell keeps its value. */
  function WriteBlock(out: Tensor, values: Tensor, flips: seq<bool>, deg: nat): (r: Tensor)
    ensures r.shape == out.shape
  {
    Tensor(out.shape,
           (j: seq<nat>) => if Covers(flips, j, deg) then values.at(Source(flips, j, deg)) else out.at(j))
  }

  /** The assignments of all listed blocks, in order. */
  function WriteBlocks(out: Tensor, values: Tensor, blocks: seq<seq<bool>>, deg: nat): (r: Tensor)
    ensures r.shape == out.shape
    decreases |blocks|
  {
    if |blocks| == 0 then out
    else WriteBlocks(WriteBlock(out, values, blocks[0], deg), values, blocks[1..], deg)
  }

  /** A value block as the source hands it over: n >= 1 axes, all of length deg + 1. */
  predicate CubicBlock(values: Tensor)
  {
    |values.shape| >= 1 && values.shape[0] >= 1
    && forall i :: 0 <= i < |values.shape| ==> values.shape[i] == values.shape[0]
  }

  /** The even extension as an independent reference: output index j reads block index j
      on axes where j <= deg and 2 deg - j where deg < j < 2 deg. */
  function Mirror(j: seq<nat>, deg: nat): (s: seq<nat>)
    ensures |s| == |j|
  {
    seq(|j|, i requires 0 <= i < |j| =>
      if j[i] <= deg then j[i] else if j[i] <= 2 * deg then 2 * deg - j[i] else 0)
  }

  /** The flips of the unique block that writes cell j. */
  function FlipsOf(j: seq<nat>, deg: nat): (f: seq<bool>)
    ensures |f| == |j|
  {
    seq(|j|, i requires 0 <= i < |j| => j[i] > deg)
  }

  /** `chebyshev_block_copy(values_block)`. The uninitialised contents of `np.empty` are the
      parameter `uninit`; the contract shows that none of them survives. */
  function ChebyshevBlockCopy(values: Tensor, uninit: seq<nat> -> real): (r: Tensor)
    requires CubicBlock(values)
    ensures var deg := values.shape[0] - 1;
            r.shape == Repeat(2 * deg, |values.shape|)
    ensures var deg := values.shape[0] - 1;
            forall j :: Fits(j, r.shape) ==>
              Fits(Mirror(j, deg), values.shape) && r.at(j) == values.at(Mirror(j, deg))
  {
    var n := |values.shape|;
    var deg := values.shape[0] - 1;
    var r := WriteBlocks(Tensor(Repeat(2 * deg, n), uninit), values, Product(n), deg);
    forall j | Fits(j, r.shape)
      ensures Fits(Mirror(j, deg), values.shape) && r.at(j) == values.at(Mirror(j, deg))
    {
      CellCopiedOnce(j, deg);
      ProductComplete(FlipsOf(j, deg));
      WriteBlocksAt(Tensor(Repeat(2 * deg, n), uninit), values, Product(n), deg, j, FlipsOf(j, deg));
    }
    r
  }

  /** On the output grid, a block writes cell j exactly when its flips are j's flips, and the
      block entry it pairs with j is j's mirror image. */
  lemma CellCopiedOnce(j: seq<nat>, deg: nat)
    requires forall i :: 0 <= i < |j| ==> j[i] < 2 * deg
    ensures forall flips :: |flips| == |j| ==> (Covers(flips, j, deg) <==> flips == FlipsOf(j, deg))
    ensures Covers(FlipsOf(j, deg), j, deg)
    ensures Source(FlipsOf(j, deg), j, deg) == Mirror(j, deg)
    ensures forall i :: 0 <= i < |j| ==> Mirror(j, deg)[i] <= deg
  {
    forall flips | |flips| == |j|
      ensures Covers(flips, j, deg) <==> flips == FlipsOf(j, deg)
    {
      if Covers(flips, j, deg) {
        forall i | 0 <= i < |j| ensures flips[i] == FlipsOf(j, deg)[i] {
        }
      }
    }
  }

  /** Folding the assignments over a block list in which only `c` writes cell j leaves at j
      either c's value or the initial one. */
  lemma {:induction false} WriteBlocksAt(out: Tensor, values: Tensor, blocks: seq<seq<bool>>,
                                         deg: nat, j: seq<nat>, c: seq<bool>)
    requires Covers(c, j, deg)
    requires forall b :: b in blocks && Covers(b, j, deg) ==> b == c
    ensures WriteBlocks(out, values, blocks, deg).at(j)
            == if c in blocks then values.at(Source(c, j, deg)) else out.at(j)
    decreases |blocks|
  {
    if |blocks| > 0 {
      var out' := WriteBlock(out, values, blocks[0], deg);
      assert forall b :: b in blocks[1..] ==> b in blocks;
      WriteBlocksAt(out', values, blocks[1..], deg, j, c);
      if blocks[0] != c {
        assert !Covers(blocks[0], j, deg);
        assert c in blocks <==> c in blocks[1..] by {
          assert blocks == [blocks[0]] + blocks[1..];
        }
      }
    }
  }

  /** Every output cell is written by exactly one block of the product loop. */
  lemma BlockCopyWritesOnce(n: nat, deg: nat, j: seq<nat>)
    requires Fits(j, Repeat(2 * deg, n))
    ensures exists p :: 0 <= p < Pow2(n) && Covers(Product(n)[p], j, deg)
    ensures forall p, q :: 0 <= p < Pow2(n) && 0 <= q < Pow2(n)
                           && Covers(Product(n)[p], j, deg) && Covers(Product(n)[q], j, deg)
                           ==> p == q
  {
    var f := FlipsOf(j, deg);
    CellCopiedOnce(j, deg);
    ProductComplete(f);
    assert Covers(Product(n)[Rank(f)], j, deg);
    forall p, q | 0 <= p < Pow2(n) && 0 <= q < Pow2(n)
                  && Covers(Product(n)[p], j, deg) && Covers(Product(n)[q], j, deg)
      ensures p == q
    {
      ProductDistinct(n, p, q);
    }
  }
}

=== FILE: good_zeros.dfy ===
/** The filters that keep the real zeros of the reference box among the complex zeros returned
    by the division solver (`good_zeros_nd`) and by the 1-D Chebyshev root finders
    (`good_zeros_1d`), and the maps of the survivors back onto the search box. */
module GoodZeros {
  import opened Affine
  import opened Tensors
  import opened MultiIndex

  datatype Complex = Complex(re: real, im: real)

  /** |z|^2. */
  function ModulusSquared(z: Complex): (m: real)
    ensures m >= z.re * z.re && m >= 0.0
  {
    NonNegProduct(Abs(z.re), Abs(z.re));
    NonNegProduct(Abs(z.im), Abs(z.im));
    z.re * z.re + z.im * z.im
  }

  /** `np.abs(z) <= c` without the square root: a modulus is never negative, so no z passes a
      negative bound. */
  predicate ModulusAtMost(z: Complex, c: real)
  {
    c >= 0.0 && ModulusSquared(z) <= c * c
  }

  /** A square bounded by c^2 bounds the number by c. */
  lemma SquareBound(x: real, c: real)
    requires c >= 0.0 && x * x <= c * c
    ensures -c <= x <= c
  {
    var ax := Abs(x);
    assert ax * ax == x * x;
    if ax > c {
      SquaresGrow(ax, c);
    }
  }

  /** Squaring is strictly increasing on the non-negative reals. */
  lemma SquaresGrow(u: real, c: real)
    requires u > c >= 0.0
    ensures u * u > c * c
  {
    PositiveProduct(u - c, u + c);
    assert (u - c) * (u + c) == u * u - c * c;
  }

  lemma PositiveProduct(x: real, y: real)
    requires x > 0.0 && y > 0.0
    ensures x * y > 0.0
  {
  }

  /** A modulus bounded by c bounds the real part by c. */
  lemma ModulusBoundsRealPart(z: Complex, c: real)
    requires ModulusAtMost(z, c)
    ensures -c <= z.re <= c
  {
    SquareBound(z.re, c);
  }

  /** r is xs at the positions q, which are increasing and are exactly the positions whose
      entry passes keep. */
  ghost predicate SelectsBy<T>(xs: seq<T>, keep: T -> bool, r: seq<T>, q: seq<nat>)
  {
    StrictlyIncreasing(q) && InRange(q, |xs|) && r == Select(xs, q)
    && forall i :: 0 <= i < |xs| ==> (i in q <==> keep(xs[i]))
  }

  /** A boolean-mask selection `xs[mask]`: the entries that pass, in their order. */
  function Filter<T(!new)>(xs: seq<T>, keep: T -> bool): (r: seq<T>)
    ensures |r| <= |xs|
    ensures forall x :: x in r <==> x in xs && keep(x)
  {
    if |xs| == 0 then []
    else
      var rest := Filter(xs[1..], keep);
      assert forall x :: x in xs <==> x == xs[0] || x in xs[1..];
      if keep(xs[0]) then [xs[0]] + rest else rest
  }

  /** The mask selection keeps order and multiplicity: it is xs at the increasing list of
      exactly those positions whose entry passes. */
  lemma {:induction false} FilterSelects<T(!new)>(xs: seq<T>, keep: T -> bool)
    ensures exists q :: SelectsBy(xs, keep, Filter(xs, keep), q)
  {
    if |xs| == 0 {
      assert Filter(xs, keep) == [];
      assert SelectsBy(xs, keep, [], []);
    } else {
      var rest := Filter(xs[1..], keep);
      FilterSelects(xs[1..], keep);
      var q :| SelectsBy(xs[1..], keep, rest, q);
      var q' := if keep(xs[0]) then [0] + Shift(q) else Shift(q);
      SelectsByCons(xs, keep, rest, q);
      assert Filter(xs, keep) == if keep(xs[0]) then [xs[0]] + rest else rest;
      assert SelectsBy(xs, keep, Filter(xs, keep), q');
    }
  }

  /** Conversely, the selection is unique: any increasing choice of exactly the passing
      positions picks out the mask selection. */
  lemma {:induction false} SelectionIsFilter<T(!new)>(xs: seq<T>, keep: T -> bool, r: seq<T>, q: seq<nat>)
    requires SelectsBy(xs, keep, r, q)
    ensures r == Filter(xs, keep)
    decreases |xs|
  {
    if |xs| == 0 {
      StrictlyIncreasingBound(q, 0);
    } else {
      var skip := if keep(xs[0]) then 1 else 0;
      SelectionSkip(xs, keep, q);
      var q' := Unshift(q[skip..]);
      SelectionTail(xs, keep, r, q, skip);
      SelectionIsFilter(xs[1..], keep, r[skip..], q');
      assert r == xs[..skip] + r[skip..];
    }
  }

  /** A selection starts at position 0 exactly when the first entry passes; every later
      position is past 0. */
  lemma SelectionSkip<T>(xs: seq<T>, keep: T -> bool, q: seq<nat>)
    requires |xs| > 0 && StrictlyIncreasing(q) && InRange(q, |xs|)
    requires forall i :: 0 <= i < |xs| ==> (i in q <==> keep(xs[i]))
    ensures var skip := if keep(xs[0]) then 1 else 0;
            skip <= |q| && (skip == 1 ==> q[0] == 0) && forall t :: skip <= t < |q| ==> q[t] >= 1
  {
    var skip := if keep(xs[0]) then 1 else 0;
    if keep(xs[0]) {
      var t0 :| 0 <= t0 < |q| && q[t0] == 0;
      HeadIsLeast(q, t0);
    }
    forall t | skip <= t < |q|
      ensures q[t] >= 1
    {
      if skip == 1 {
        assert q[0] < q[t];
      } else {
        assert q[t] in q;
      }
    }
  }

  /** The first of increasing positions is the least. */
  lemma HeadIsLeast(q: seq<nat>, t: nat)
    requires StrictlyIncreasing(q) && t < |q|
    ensures q[0] <= q[t]
  {
    if t > 0 {
      assert q[0] < q[t];
    }
  }

  /** Every position moved one place back. */
  function Unshift(q: seq<nat>): (r: seq<nat>)
    requires forall t :: 0 <= t < |q| ==> q[t] >= 1
    ensures |r| == |q|
    ensures forall t :: 0 <= t < |q| ==> r[t] + 1 == q[t]
  {
    seq(|q|, t requires 0 <= t < |q| => q[t] - 1)
  }

  /** The positions moved back are the old positions past 0, one place back. */
  lemma UnshiftMembers(q: seq<nat>, i: nat)
    requires forall t :: 0 <= t < |q| ==> q[t] >= 1
    ensures i in Unshift(q) <==> i + 1 in q
  {
    var u := Unshift(q);
    if i in u {
      var t :| 0 <= t < |u| && u[t] == i;
      assert q[t] == i + 1;
    }
    if i + 1 in q {
      var t :| 0 <= t < |q| && q[t] == i + 1;
      assert u[t] == i;
    }
  }

  /** Dropping the first entry of a selection leaves a selection from the tail. */
  lemma SelectionTail<T>(xs: seq<T>, keep: T -> bool, r: seq<T>, q: seq<nat>, skip: nat)
    requires |xs| > 0 && SelectsBy(xs, keep, r, q)
    requires skip == (if keep(xs[0]) then 1 else 0)
    requires skip <= |q| && (skip == 1 ==> q[0] == 0) && forall t :: skip <= t < |q| ==> q[t] >= 1
    ensures SelectsBy(xs[1..], keep, r[skip..], Unshift(q[skip..]))
    ensures skip == 1 ==> r[0] == xs[0]
  {
    var p := q[skip..];
    var q' := Unshift(p);
    UnshiftIncreasing(q, skip);
    forall i | 0 <= i < |xs| - 1
      ensures i in q' <==> keep(xs[1..][i])
    {
      UnshiftMembers(p, i);
      SkipMembers(q, skip, i + 1);
    }
    UnshiftSelect(xs, r, q, skip);
  }

  /** The later positions, moved back, are still increasing. */
  lemma UnshiftIncreasing(q: seq<nat>, skip: nat)
    requires StrictlyIncreasing(q) && skip <= |q| && forall t :: skip <= t < |q| ==> q[t] >= 1
    ensures StrictlyIncreasing(Unshift(q[skip..]))
  {
    var p := q[skip..];
    var q' := Unshift(p);
    forall s, t | 0 <= s < t < |q'|
      ensures q'[s] < q'[t]
    {
      assert p[s] == q[s + skip] && p[t] == q[t + skip];
    }
  }

  /** Selecting at the later positions moved back, from the tail, gives the later entries. */
  lemma UnshiftSelect<T>(xs: seq<T>, r: seq<T>, q: seq<nat>, skip: nat)
    requires |xs| > 0 && InRange(q, |xs|) && r == Select(xs, q)
    requires skip <= |q| && forall t :: skip <= t < |q| ==> q[t] >= 1
    ensures InRange(Unshift(q[skip..]), |xs| - 1)
    ensures r[skip..] == Select(xs[1..], Unshift(q[skip..]))
  {
    var q' := Unshift(q[skip..]);
    forall t | 0 <= t < |q'|
      ensures q'[t] < |xs| - 1 && r[skip..][t] == xs[1..][q'[t]]
    {
      assert q[skip..][t] == q[t + skip];
      assert r[t + skip] == xs[q[t + skip]];
    }
  }

  /** Past position 0, a position is in the list exactly when it is in the part after skip. */
  lemma SkipMembers(q: seq<nat>, skip: nat, x: nat)
    requires skip <= |q| && (forall t :: 0 <= t < skip ==> q[t] == 0) && x >= 1
    ensures x in q[skip..] <==> x in q
  {
    if x in q {
      var t :| 0 <= t < |q| && q[t] == x;
      assert q[skip..][t - skip] == x;
    }
  }

  /** Every position moved one place on. */
  function Shift(q: seq<nat>): (r: seq<nat>)
    ensures |r| == |q|
    ensures forall t :: 0 <= t < |q| ==> r[t] == q[t] + 1
  {
    seq(|q|, t requires 0 <= t < |q| => q[t] + 1)
  }

  /** A selection from the tail extends to one from the whole list. */
  lemma SelectsByCons<T>(xs: seq<T>, keep: T -> bool, rest: seq<T>, q: seq<nat>)
    requires |xs| > 0 && SelectsBy(xs[1..], keep, rest, q)
    ensures SelectsBy(xs, keep, if keep(xs[0]) then [xs[0]] + rest else rest,
                      if keep(xs[0]) then [0] + Shift(q) else Shift(q))
  {
    var sh := Shift(q);
    ShiftMembers(q, |xs| - 1);
    ShiftSelect(xs, rest, q);
    forall i | 1 <= i < |xs|
      ensures i in sh <==> keep(xs[i])
    {
      assert xs[i] == xs[1..][i - 1];
    }
    if keep(xs[0]) {
      ConsSelect(xs, rest, sh);
    } else {
      assert SelectsBy(xs, keep, rest, sh);
    }
  }

  /** Putting position 0 in front of positions that skip it. */
  lemma ConsSelect<T>(xs: seq<T>, rest: seq<T>, sh: seq<nat>)
    requires |xs| > 0 && InRange(sh, |xs|) && StrictlyIncreasing(sh) && 0 !in sh
    requires rest == Select(xs, sh)
    ensures InRange([0] + sh, |xs|) && StrictlyIncreasing([0] + sh)
    ensures [xs[0]] + rest == Select(xs, [0] + sh)
    ensures forall i :: 0 <= i < |xs| ==> (i in [0] + sh <==> i == 0 || i in sh)
  {
    var q' := [0] + sh;
    assert forall t :: 0 < t < |q'| ==> q'[t] == sh[t - 1];
    forall t | 0 < t < |q'|
      ensures 0 < q'[t]
    {
      assert sh[t - 1] in sh;
    }
  }

  /** The shifted positions are the old positions one place on. */
  lemma ShiftMembers(q: seq<nat>, n: nat)
    requires InRange(q, n) && StrictlyIncreasing(q)
    ensures InRange(Shift(q), n + 1) && StrictlyIncreasing(Shift(q)) && 0 !in Shift(q)
    ensures forall i :: 1 <= i <= n ==> (i in Shift(q) <==> i - 1 in q)
  {
    var sh := Shift(q);
    forall i | 1 <= i <= n
      ensures i in sh <==> i - 1 in q
    {
      if i in sh {
        var t :| 0 <= t < |sh| && sh[t] == i;
        assert q[t] == i - 1;
      }
      if i - 1 in q {
        var t :| 0 <= t < |q| && q[t] == i - 1;
        assert sh[t] == i;
      }
    }
  }

  /** Selecting from the tail is selecting from the whole list at the shifted positions. */
  lemma ShiftSelect<T>(xs: seq<T>, rest: seq<T>, q: seq<nat>)
    requires |xs| > 0 && InRange(q, |xs| - 1) && rest == Select(xs[1..], q)
    ensures InRange(Shift(q), |xs|) && rest == Select(xs, Shift(q))
  {
    var sh := Shift(q);
    forall t | 0 <= t < |q|
      ensures rest[t] == xs[sh[t]]
    {
      assert rest[t] == xs[1..][q[t]];
    }
  }

  /** Two selections in a row are one selection by both tests. */
  lemma {:induction false} FilterTwice<T(!new)>(xs: seq<T>, p: T -> bool, q: T -> bool, both: T -> bool)
    requires forall x :: both(x) == (p(x) && q(x))
    ensures Filter(Filter(xs, p), q) == Filter(xs, both)
  {
    if |xs| > 0 {
      FilterTwice(xs[1..], p, q, both);
    }
  }

  /** Every coordinate of the zero has an imaginary part below the tolerance. */
  predicate RealRow(row: seq<Complex>, imagTol: real)
  {
    forall k :: 0 <= k < |row| ==> Abs(row[k].im) < imagTol
  }

  /** Every coordinate of the zero has modulus at most 1 + realTol. */
  predicate InUnitBox(row: seq<Complex>, realTol: real)
  {
    forall k :: 0 <= k < |row| ==> ModulusAtMost(row[k], 1.0 + realTol)
  }

  function RealParts(row: seq<Complex>): (r: seq<real>)
    ensures |r| == |row|
    ensures forall k :: 0 <= k < |row| ==> r[k] == row[k].re
  {
    seq(|row|, k requires 0 <= k < |row| => row[k].re)
  }

  function MapRealParts(rows: seq<seq<Complex>>): (r: seq<seq<real>>)
    ensures |r| == |rows|
    ensures forall t :: 0 <= t < |rows| ==> r[t] == RealParts(rows[t])
  {
    seq(|rows|, t requires 0 <= t < |rows| => RealParts(rows[t]))
  }

  /** `good_zeros_nd(zeros, imag_tol, real_tol)`: keep the rows whose coordinates are all
      nearly real, then those whose coordinates all have modulus at most 1 + real_tol, and
      return their real parts. */
  function GoodZerosNd(zeros: seq<seq<Complex>>, imagTol: real, realTol: real): (r: seq<seq<real>>)
    ensures |r| <= |zeros|
  {
    var nearlyReal := Filter(zeros, row => RealRow(row, imagTol));
    MapRealParts(Filter(nearlyReal, row => InUnitBox(row, realTol)))
  }

  /** The two selections of `good_zeros_nd` are one selection by both tests; a row survives
      exactly when it passes both. */
  lemma GoodZerosNdSelects(zeros: seq<seq<Complex>>, imagTol: real, realTol: real)
    ensures var kept := Filter(zeros, row => RealRow(row, imagTol) && InUnitBox(row, realTol));
            && GoodZerosNd(zeros, imagTol, realTol) == MapRealParts(kept)
            && forall row :: row in kept <==> row in zeros && RealRow(row, imagTol) && InUnitBox(row, realTol)
  {
    FilterTwice(zeros, row => RealRow(row, imagTol), row => InUnitBox(row, realTol),
                row => RealRow(row, imagTol) && InUnitBox(row, realTol));
  }

  /** Every coordinate of a surviving zero lies in [-(1 + realTol), 1 + realTol]. */
  lemma GoodZerosNdInBox(zeros: seq<seq<Complex>>, imagTol: real, realTol: real)
    ensures var r := GoodZerosNd(zeros, imagTol, realTol);
            forall t, k :: 0 <= t < |r| && 0 <= k < |r[t]| ==>
              -(1.0 + realTol) <= r[t][k] <= 1.0 + realTol
  {
    var kept := Filter(Filter(zeros, row => RealRow(row, imagTol)), row => InUnitBox(row, realTol));
    var r := GoodZerosNd(zeros, imagTol, realTol);
    forall t, k | 0 <= t < |r| && 0 <= k < |r[t]|
      ensures -(1.0 + realTol) <= r[t][k] <= 1.0 + realTol
    {
      assert kept[t] in kept;
      ModulusBoundsRealPart(kept[t][k], 1.0 + realTol);
    }
  }

  /** The zeros found on the reference box mapped back onto [a, b], one row at a time; no
      zeros gives no rows (`np.zeros([0, dim])`). */
  function DivisionRoots(zeros: seq<seq<Complex>>, a: seq<real>, b: seq<real>,
                         imagTol: real, realTol: real): (roots: seq<seq<real>>)
    requires |a| == |b|
    requires forall t :: 0 <= t < |zeros| ==> |zeros[t]| == |a|
    ensures |roots| <= |zeros|
    ensures forall t :: 0 <= t < |roots| ==> |roots[t]| == |a|
    ensures |roots| == |GoodZerosNd(zeros, imagTol, realTol)|
    ensures forall t :: 0 <= t < |roots| ==> |GoodZerosNd(zeros, imagTol, realTol)[t]| == |a|
  {
    if |zeros| == 0 then []
    else
      var good := GoodZerosNd(zeros, imagTol, realTol);
      GoodRowsWidth(zeros, imagTol, realTol, |a|);
      seq(|good|, t requires 0 <= t < |good| => TransformPoint(good[t], a, b))
  }

  /** The division roots are the rows good_zeros_nd keeps, mapped onto [a, b]: on every
      non-degenerate axis the inverse map recovers the kept coordinate. */
  lemma DivisionRootsInverse(zeros: seq<seq<Complex>>, a: seq<real>, b: seq<real>,
                             imagTol: real, realTol: real)
    requires |a| == |b|
    requires forall t :: 0 <= t < |zeros| ==> |zeros[t]| == |a|
    ensures var roots := DivisionRoots(zeros, a, b, imagTol, realTol);
            var good := GoodZerosNd(zeros, imagTol, realTol);
            |roots| == |good| && forall t, i :: 0 <= t < |roots| && 0 <= i < |a| && a[i] != b[i] ==>
              |good[t]| == |a| && InverseTransform(roots[t][i], a[i], b[i]) == good[t][i]
  {
    var roots := DivisionRoots(zeros, a, b, imagTol, realTol);
    var good := GoodZerosNd(zeros, imagTol, realTol);
    GoodRowsWidth(zeros, imagTol, realTol, |a|);
    forall t, i | 0 <= t < |roots| && 0 <= i < |a| && a[i] != b[i]
      ensures InverseTransform(roots[t][i], a[i], b[i]) == good[t][i]
    {
      assert roots[t] == TransformPoint(good[t], a, b);
    }
  }

  lemma GoodRowsWidth(zeros: seq<seq<Complex>>, imagTol: real, realTol: real, n: nat)
    requires forall t :: 0 <= t < |zeros| ==> |zeros[t]| == n
    ensures var good := GoodZerosNd(zeros, imagTol, realTol);
            forall t :: 0 <= t < |good| ==> |good[t]| == n
  {
    var kept := Filter(Filter(zeros, row => RealRow(row, imagTol)), row => InUnitBox(row, realTol));
    forall t | 0 <= t < |kept| ensures |kept[t]| == n {
      assert kept[t] in kept;
    }
  }

  /** Every root reported on [a, b] lies in the box widened by (b - a) realTol / 2 on each
      axis: the real tolerance lets zeros slightly outside the box through. */
  lemma DivisionRootsInBox(zeros: seq<seq<Complex>>, a: seq<real>, b: seq<real>,
                           imagTol: real, realTol: real)
    requires |a| == |b| && forall i :: 0 <= i < |a| ==> a[i] <= b[i]
    requires forall t :: 0 <= t < |zeros| ==> |zeros[t]| == |a|
    ensures var roots := DivisionRoots(zeros, a, b, imagTol, realTol);
            forall t, i :: 0 <= t < |roots| && 0 <= i < |roots[t]| ==>
              a[i] - (b[i] - a[i]) * realTol / 2.0 <= roots[t][i] <= b[i] + (b[i] - a[i]) * realTol / 2.0
  {
    var roots := DivisionRoots(zeros, a, b, imagTol, realTol);
    if |zeros| > 0 {
      var good := GoodZerosNd(zeros, imagTol, realTol);
      GoodZerosNdInBox(zeros, imagTol, realTol);
      GoodRowsWidth(zeros, imagTol, realTol, |a|);
      forall t | 0 <= t < |roots|
        ensures forall i :: 0 <= i < |roots[t]| ==>
                  a[i] - (b[i] - a[i]) * realTol / 2.0 <= roots[t][i] <= b[i] + (b[i] - a[i]) * realTol / 2.0
      {
        assert roots[t] == TransformPoint(good[t], a, b);
        RowNearBox(good[t], a, b, realTol);
      }
    }
  }

  /** A row within 1 + tol of the unit box maps to within (b-a) tol / 2 of [a, b]. */
  lemma RowNearBox(x: seq<real>, a: seq<real>, b: seq<real>, tol: real)
    requires |x| == |a| == |b| && forall i :: 0 <= i < |a| ==> a[i] <= b[i]
    requires forall i :: 0 <= i < |x| ==> -(1.0 + tol) <= x[i] <= 1.0 + tol
    ensures var y := TransformPoint(x, a, b);
            forall i :: 0 <= i < |y| ==> a[i] - (b[i] - a[i]) * tol / 2.0 <= y[i] <= b[i] + (b[i] - a[i]) * tol / 2.0
  {
    var y := TransformPoint(x, a, b);
    forall i | 0 <= i < |y|
      ensures a[i] - (b[i] - a[i]) * tol / 2.0 <= y[i] <= b[i] + (b[i] - a[i]) * tol / 2.0
    {
      TransformNearBox(x[i], a[i], b[i], tol);
    }
  }

  /** A point within 1 + tol of the centre of [-1, 1] maps within (b - a) tol / 2 of [a, b]. */
  lemma TransformNearBox(x: real, a: real, b: real, tol: real)
    requires a <= b && -(1.0 + tol) <= x <= 1.0 + tol
    ensures a - (b - a) * tol / 2.0 <= Transform(x, a, b) <= b + (b - a) * tol / 2.0
  {
    NonNegProduct(b - a, x + 1.0 + tol);
    NonNegProduct(b - a, 1.0 + tol - x);
    assert (b - a) * (x + 1.0 + tol) == (b - a) * (x + 1.0) + (b - a) * tol;
    assert (b - a) * (1.0 + tol - x) == (b - a) * (1.0 - x) + (b - a) * tol;
  }

  /** `good_zeros_1d(zeros, imag_tol)`: keep the zeros of modulus at most 1, then the nearly
      real ones; the survivors stay complex. */
  function GoodZeros1d(zeros: seq<Complex>, imagTol: real): (r: seq<Complex>)
    ensures forall z :: z in r <==> z in zeros && ModulusAtMost(z, 1.0) && Abs(z.im) < imagTol
    ensures r == Filter(zeros, z => ModulusAtMost(z, 1.0) && Abs(z.im) < imagTol)
  {
    FilterTwice(zeros, z => ModulusAtMost(z, 1.0), (z: Complex) => Abs(z.im) < imagTol,
                z => ModulusAtMost(z, 1.0) && Abs(z.im) < imagTol);
    Filter(Filter(zeros, z => ModulusAtMost(z, 1.0)), (z: Complex) => Abs(z.im) < imagTol)
  }

  /** `transform` on a complex value: the real part is mapped, the imaginary part scaled. */
  function TransformComplex(z: Complex, a: real, b: real): (w: Complex)
    ensures w.re == Transform(z.re, a, b)
    ensures w.im == (b - a) * z.im / 2.0
  {
    Complex(Transform(z.re, a, b), (b - a) * z.im / 2.0)
  }

  /** The roots the 1-D solver reports for one accepted approximation on [a, b]. */
  function Roots1d(zeros: seq<Complex>, a: real, b: real, imagTol: real): (roots: seq<Complex>)
    ensures |roots| == |GoodZeros1d(zeros, imagTol)|
  {
    var good := GoodZeros1d(zeros, imagTol);
    seq(|good|, t requires 0 <= t < |good| => TransformComplex(good[t], a, b))
  }

  /** The 1-D roots are the zeros good_zeros_1d keeps, mapped onto [a, b]: for a != b the
      inverse map recovers each real part, and each imaginary part is scaled by (b - a) / 2. */
  lemma Roots1dInverse(zeros: seq<Complex>, a: real, b: real, imagTol: real)
    ensures var roots := Roots1d(zeros, a, b, imagTol);
            var good := GoodZeros1d(zeros, imagTol);
            |roots| == |good|
            && (forall t :: 0 <= t < |roots| && a != b ==> InverseTransform(roots[t].re, a, b) == good[t].re)
            && (forall t :: 0 <= t < |roots| ==> 2.0 * roots[t].im == (b - a) * good[t].im)
  {
    var roots := Roots1d(zeros, a, b, imagTol);
    var good := GoodZeros1d(zeros, imagTol);
    forall t | 0 <= t < |roots|
      ensures a != b ==> InverseTransform(roots[t].re, a, b) == good[t].re
      ensures 2.0 * roots[t].im == (b - a) * good[t].im
    {
      assert roots[t] == TransformComplex(good[t], a, b);
      if a != b {
        TransformRoundTrip(good[t].re, 0.0, a, b);
      }
    }
  }


  /** Every reported 1-D root has its real part in [a, b] and an imaginary part below
      (b - a) imagTol / 2. */
  lemma Roots1dInInterval(zeros: seq<Complex>, a: real, b: real, imagTol: real)
    requires a <= b
    ensures forall w :: w in Roots1d(zeros, a, b, imagTol) ==>
              a <= w.re <= b && Abs(w.im) <= (b - a) * imagTol / 2.0
  {
    var good := GoodZeros1d(zeros, imagTol);
    var roots := Roots1d(zeros, a, b, imagTol);
    forall w | w in roots
      ensures a <= w.re <= b && Abs(w.im) <= (b - a) * imagTol / 2.0
    {
      var t :| 0 <= t < |roots| && roots[t] == w;
      assert good[t] in good;
      GoodRootInInterval(good[t], a, b, imagTol);
    }
  }

  /** One surviving zero maps into [a, b] up to a small imaginary part. */
  lemma GoodRootInInterval(z: Complex, a: real, b: real, imagTol: real)
    requires a <= b && ModulusAtMost(z, 1.0) && Abs(z.im) < imagTol
    ensures var w := TransformComplex(z, a, b);
            a <= w.re <= b && Abs(w.im) <= (b - a) * imagTol / 2.0
  {
    ModulusBoundsRealPart(z, 1.0);
    ScaledAbs(b - a, z.im, imagTol);
  }

  /** |d y / 2| <= d t / 2 for d >= 0 and |y| < t. */
  lemma ScaledAbs(d: real, y: real, t: real)
    requires d >= 0.0 && Abs(y) < t
    ensures Abs(d * y / 2.0) <= d * t / 2.0
  {
    NonNegProduct(d, t - y);
    NonNegProduct(d, t + y);
    assert d * (t - y) == d * t - d * y;
    assert d * (t + y) == d * t + d * y;
  }
}

=== FILE: multi_index.dfy ===
/** Multi-indices into coefficient tensors and the degree-limited enumeration
    `mon_combos_limited` (yroots/subdivision.py). */
module MultiIndex {

  function Min(x: nat, y: nat): nat
  {
    if x <= y then x else y
  }

  /** `np.arange(n)`. */
  function Range(n: nat): (r: seq<nat>)
    ensures |r| == n
    ensures forall i :: 0 <= i < n ==> r[i] == i
  {
    seq(n, i => i)
  }

  lemma RangeMembers(n: nat, x: nat)
    ensures x in Range(n) <==> x < n
  {
    if x < n {
      assert Range(n)[x] == x;
    }
  }

  /** A list of positions in strictly increasing order: no repeats, original order kept. */
  predicate StrictlyIncreasing(q: seq<nat>)
  {
    forall s, t :: 0 <= s < t < |q| ==> q[s] < q[t]
  }

  /** Every listed position is below n. */
  predicate InRange(q: seq<nat>, n: nat)
  {
    forall t :: 0 <= t < |q| ==> q[t] < n
  }

  /** `xs[q]`: the entries of xs at the listed positions, in the listed order. */
  function Select<T>(xs: seq<T>, q: seq<nat>): (r: seq<T>)
    requires InRange(q, |xs|)
    ensures |r| == |q|
    ensures forall t :: 0 <= t < |q| ==> r[t] == xs[q[t]]
  {
    seq(|q|, t requires 0 <= t < |q| => xs[q[t]])
  }

  /** A strictly increasing list of positions below n has at most n entries. */
  lemma {:induction false} StrictlyIncreasingBound(q: seq<nat>, n: nat)
    requires StrictlyIncreasing(q) && InRange(q, n)
    ensures |q| <= n
    decreases |q|
  {
    if |q| > 0 {
      var last := q[|q| - 1];
      var front := q[..|q| - 1];
      assert StrictlyIncreasing(front);
      assert InRange(front, last);
      StrictlyIncreasingBound(front, last);
    }
  }

  /** Prefixes every index of `ms` with `v`. */
  function PrependIndex(v: nat, ms: seq<seq<nat>>): (r: seq<seq<nat>>)
    ensures |r| == |ms|
    ensures forall p :: 0 <= p < |r| ==> r[p] == [v] + ms[p]
  {
    seq(|ms|, p requires 0 <= p < |ms| => [v] + ms[p])
  }

  /** Sum of the entries of m from position c on. */
  function SumFrom(m: seq<nat>, c: nat): nat
    decreases |m| - c
  {
    if c >= |m| then 0 else m[c] + SumFrom(m, c + 1)
  }

  /** The total degree of a monomial: the sum of its exponents. */
  function TotalDegree(m: seq<nat>): nat
  {
    SumFrom(m, 0)
  }

  function Zeros(n: nat): (z: seq<nat>)
    ensures |z| == n
    ensures forall i :: 0 <= i < n ==> z[i] == 0
  {
    seq(n, _ => 0)
  }

  /** m is a valid index into a tensor of this shape. */
  predicate Fits(m: seq<nat>, shape: seq<nat>)
  {
    |m| == |shape| && forall i :: 0 <= i < |m| ==> m[i] < shape[i]
  }

  /** Every axis has at least one entry, as for any non-empty array. */
  predicate PositiveShape(shape: seq<nat>)
  {
    forall i :: 0 <= i < |shape| ==> shape[i] >= 1
  }

  predicate ZeroFrom(m: seq<nat>, c: nat)
  {
    forall i :: c <= i < |m| ==> m[i] == 0
  }

  /** a and b have the same entries before position c. */
  predicate Agree(a: seq<nat>, b: seq<nat>, c: nat)
  {
    c <= |a| && c <= |b| && forall i :: 0 <= i < c ==> a[i] == b[i]
  }

  /** Strict lexicographic order on multi-indices. */
  predicate LexLess(a: seq<nat>, b: seq<nat>)
  {
    exists k :: 0 <= k < |a| && k < |b| && Agree(a, b, k) && a[k] < b[k]
  }

  predicate StrictlySorted(rs: seq<seq<nat>>)
  {
    forall p, q :: 0 <= p < q < |rs| ==> LexLess(rs[p], rs[q])
  }

  /** Appending a block whose members all exceed the members of the first block keeps the
      whole sequence strictly sorted. */
  lemma SortedConcat(xs: seq<seq<nat>>, ys: seq<seq<nat>>)
    requires StrictlySorted(xs) && StrictlySorted(ys)
    requires forall x, y :: x in xs && y in ys ==> LexLess(x, y)
    ensures StrictlySorted(xs + ys)
  {
    var zs := xs + ys;
    forall p, q | 0 <= p < q < |zs|
      ensures LexLess(zs[p], zs[q])
    {
      if q < |xs| {
        assert zs[p] == xs[p] && zs[q] == xs[q];
      } else if p >= |xs| {
        assert zs[p] == ys[p - |xs|] && zs[q] == ys[q - |xs|];
      } else {
        assert zs[p] in xs && zs[q] in ys;
      }
    }
  }

  /** Two indices that agree before position c and differ at c are ordered by that entry. */
  lemma LexLessAt(a: seq<nat>, b: seq<nat>, c: nat)
    requires c < |a| && c < |b| && Agree(a, b, c) && a[c] < b[c]
    ensures LexLess(a, b)
  {
  }

  /** r completes the prefix `mon[..curDim]`: it keeps that prefix, its exponents from
      `curDim` on sum to `remaining`, and they fit every non-empty axis of the shape. */
  predicate IsCompletion(r: seq<nat>, mon: seq<nat>, remaining: nat, shape: seq<nat>, curDim: nat)
  {
    && |r| == |mon| == |shape|
    && Agree(r, mon, curDim)
    && SumFrom(r, curDim) == remaining
    && forall i :: curDim <= i < |r| && shape[i] >= 1 ==> r[i] < shape[i]
  }

  /** `mon_combos_limited(mon, remaining_degrees, shape, cur_dim)`: every way to complete the
      fixed prefix `mon[..curDim]` with exponents from `curDim` on that sum to `remaining`
      and fit the shape. The source documents `mon` as a list of zeros that the recursion
      fills in, which is the requirement on its tail. */
  function MonCombosLimited(mon: seq<nat>, remaining: nat, shape: seq<nat>, curDim: nat)
    : (rs: seq<seq<nat>>)
    requires |mon| == |shape| && curDim < |mon|
    requires ZeroFrom(mon, curDim)
    ensures forall r :: r in rs ==> IsCompletion(r, mon, remaining, shape, curDim)
    decreases |mon| - curDim, 1
  {
    if |mon| == curDim + 1 then
      if remaining < shape[curDim] then
        var r := mon[curDim := remaining];
        assert SumFrom(r, curDim + 1) == 0;
        [r]
      else
        []
    else if remaining == 0 then
      SumOfZeros(mon, curDim);
      [mon]
    else
      MonCombosLoop(mon, remaining, shape, curDim, 0, Min(shape[curDim], remaining + 1))
  }

  /** The `for i in range(min(shape[cur_dim], remaining_degrees + 1))` loop of
      `mon_combos_limited`, from iteration `i` on: exponent `i` at `curDim`, then the
      recursive completions of the rest. */
  function MonCombosLoop(mon: seq<nat>, remaining: nat, shape: seq<nat>, curDim: nat,
                         i: nat, bound: nat)
    : (rs: seq<seq<nat>>)
    requires |mon| == |shape| && curDim + 1 < |mon|
    requires ZeroFrom(mon, curDim + 1)
    requires bound <= remaining + 1 && bound <= shape[curDim]
    ensures forall r :: r in rs ==>
              IsCompletion(r, mon, remaining, shape, curDim) && i <= r[curDim] < bound
    decreases |mon| - curDim, 0, bound - i
  {
    if i >= bound then []
    else
      var next := mon[curDim := i];
      assert ZeroFrom(next, curDim + 1);
      var here := MonCombosLimited(next, remaining - i, shape, curDim + 1);
      here + MonCombosLoop(mon, remaining, shape, curDim, i + 1, bound)
  }

  /** One iteration of the loop: the block for exponent i, then the remaining iterations. */
  lemma LoopStep(mon: seq<nat>, remaining: nat, shape: seq<nat>, curDim: nat, i: nat, bound: nat)
    requires |mon| == |shape| && curDim + 1 < |mon|
    requires ZeroFrom(mon, curDim + 1)
    requires bound <= remaining + 1 && bound <= shape[curDim]
    requires i < bound
    ensures ZeroFrom(mon[curDim := i], curDim + 1)
    ensures MonCombosLoop(mon, remaining, shape, curDim, i, bound)
            == MonCombosLimited(mon[curDim := i], remaining - i, shape, curDim + 1)
               + MonCombosLoop(mon, remaining, shape, curDim, i + 1, bound)
  {
    assert ZeroFrom(mon[curDim := i], curDim + 1);
  }

  /** The block of loop iteration i fixes the prefix and puts exponent i at curDim. */
  lemma LoopBlockHead(mon: seq<nat>, remaining: nat, shape: seq<nat>, curDim: nat, i: nat)
    requires |mon| == |shape| && curDim + 1 < |mon|
    requires ZeroFrom(mon, curDim + 1) && i <= remaining
    ensures ZeroFrom(mon[curDim := i], curDim + 1)
    ensures forall r :: r in MonCombosLimited(mon[curDim := i], remaining - i, shape, curDim + 1)
                        ==> Agree(r, mon, curDim) && r[curDim] == i
  {
    var next := mon[curDim := i];
    assert ZeroFrom(next, curDim + 1);
    forall r | r in MonCombosLimited(next, remaining - i, shape, curDim + 1)
      ensures Agree(r, mon, curDim) && r[curDim] == i
    {
      assert Agree(r, next, curDim + 1);
    }
  }

  /** The enumeration comes out in strictly increasing lexicographic order. */
  lemma {:induction false} MonCombosSorted(mon: seq<nat>, remaining: nat, shape: seq<nat>,
                                           curDim: nat)
    requires |mon| == |shape| && curDim < |mon|
    requires ZeroFrom(mon, curDim)
    ensures StrictlySorted(MonCombosLimited(mon, remaining, shape, curDim))
    decreases |mon| - curDim, 1
  {
    if |mon| != curDim + 1 && remaining != 0 {
      LoopSorted(mon, remaining, shape, curDim, 0, Min(shape[curDim], remaining + 1));
    }
  }

  lemma {:induction false} LoopSorted(mon: seq<nat>, remaining: nat, shape: seq<nat>,
                                      curDim: nat, i: nat, bound: nat)
    requires |mon| == |shape| && curDim + 1 < |mon|
    requires ZeroFrom(mon, curDim + 1)
    requires bound <= remaining + 1 && bound <= shape[curDim]
    ensures StrictlySorted(MonCombosLoop(mon, remaining, shape, curDim, i, bound))
    decreases |mon| - curDim, 0, bound - i
  {
    if i < bound {
      var next := mon[curDim := i];
      LoopStep(mon, remaining, shape, curDim, i, bound);
      LoopBlockHead(mon, remaining, shape, curDim, i);
      var here := MonCombosLimited(next, remaining - i, shape, curDim + 1);
      var rest := MonCombosLoop(mon, remaining, shape, curDim, i + 1, bound);
      MonCombosSorted(next, remaining - i, shape, curDim + 1);
      LoopSorted(mon, remaining, shape, curDim, i + 1, bound);
      forall x, y | x in here && y in rest
        ensures LexLess(x, y)
      {
        LexLessAt(x, y, curDim);
      }
      SortedConcat(here, rest);
    }
  }

  /** An index whose tail sums to zero has a zero tail. */
  lemma {:induction false} ZeroSum(m: seq<nat>, c: nat)
    requires SumFrom(m, c) == 0
    ensures ZeroFrom(m, c)
    decreases |m| - c
  {
    if c < |m| {
      ZeroSum(m, c + 1);
    }
  }

  /** And conversely a zero tail sums to zero. */
  lemma {:induction false} SumOfZeros(m: seq<nat>, c: nat)
    requires ZeroFrom(m, c)
    ensures SumFrom(m, c) == 0
    decreases |m| - c
  {
    if c < |m| {
      SumOfZeros(m, c + 1);
    }
  }

  /** Every completion of the prefix with the right tail sum that fits the shape is
      enumerated. */
  lemma {:induction false} MonCombosComplete(mon: seq<nat>, remaining: nat, shape: seq<nat>,
                                             curDim: nat, r: seq<nat>)
    requires |mon| == |shape| && curDim < |mon| && ZeroFrom(mon, curDim)
    requires |r| == |mon| && Agree(r, mon, curDim) && SumFrom(r, curDim) == remaining
    requires forall i :: curDim <= i < |r| ==> r[i] < shape[i]
    ensures r in MonCombosLimited(mon, remaining, shape, curDim)
    decreases |mon| - curDim
  {
    if |mon| == curDim + 1 {
      assert SumFrom(r, curDim + 1) == 0;
      assert r == mon[curDim := remaining];
    } else if remaining == 0 {
      ZeroSum(r, curDim);
      assert r == mon;
    } else {
      var j := r[curDim];
      var bound := Min(shape[curDim], remaining + 1);
      var next := mon[curDim := j];
      assert ZeroFrom(next, curDim + 1);
      assert Agree(r, next, curDim + 1);
      MonCombosComplete(next, remaining - j, shape, curDim + 1, r);
      LoopContains(mon, remaining, shape, curDim, 0, bound, j, r);
    }
  }

  /** The loop from iteration i contains everything iteration j >= i produces. */
  lemma {:induction false} LoopContains(mon: seq<nat>, remaining: nat, shape: seq<nat>,
                                        curDim: nat, i: nat, bound: nat, j: nat, r: seq<nat>)
    requires |mon| == |shape| && curDim + 1 < |mon|
    requires ZeroFrom(mon, curDim + 1)
    requires bound <= remaining + 1 && bound <= shape[curDim]
    requires i <= j < bound
    requires ZeroFrom(mon[curDim := j], curDim + 1)
    requires r in MonCombosLimited(mon[curDim := j], remaining - j, shape, curDim + 1)
    ensures r in MonCombosLoop(mon, remaining, shape, curDim, i, bound)
    decreases bound - i
  {
    LoopStep(mon, remaining, shape, curDim, i, bound);
    var here := MonCombosLimited(mon[curDim := i], remaining - i, shape, curDim + 1);
    var rest := MonCombosLoop(mon, remaining, shape, curDim, i + 1, bound);
    if i < j {
      LoopContains(mon, remaining, shape, curDim, i + 1, bound, j, r);
      assert r in rest;
    } else {
      assert r in here;
    }
  }

  /** No index fitting a shape exceeds the shape's top degree, `sum(shape) - dim`. */
  lemma {:induction false} FitsDegreeBound(m: seq<nat>, shape: seq<nat>, c: nat)
    requires Fits(m, shape) && c <= |m|
    ensures SumFrom(m, c) + (|m| - c) <= SumFrom(shape, c)
    decreases |m| - c
  {
    if c < |m| {
      FitsDegreeBound(m, shape, c + 1);
    }
  }

  /** The index of the last entry on every axis: the corner of the shape. */
  function TopCorner(shape: seq<nat>): (m: seq<nat>)
    requires PositiveShape(shape)
    ensures Fits(m, shape)
  {
    seq(|shape|, i requires 0 <= i < |shape| => shape[i] - 1)
  }

  /** The corner's exponents from c on fall short of the shape's by one per axis. */
  lemma {:induction false} TopCornerSum(shape: seq<nat>, c: nat)
    requires PositiveShape(shape) && c <= |shape|
    ensures SumFrom(TopCorner(shape), c) + (|shape| - c) == SumFrom(shape, c)
    decreases |shape| - c
  {
    if c < |shape| {
      TopCornerSum(shape, c + 1);
    }
  }

  /** Every index that fits the shape has total degree at most `sum(shape) - dim`. */
  lemma DegreeBoundAll(shape: seq<nat>)
    ensures forall m :: Fits(m, shape) ==> TotalDegree(m) + |shape| <= TotalDegree(shape)
  {
    forall m | Fits(m, shape)
      ensures TotalDegree(m) + |shape| <= TotalDegree(shape)
    {
      FitsDegreeBound(m, shape, 0);
    }
  }

  /** The enumeration the trimming loop asks for, `mon_combos_limited([0]*dim, deg, shape)`,
      lists exactly the indices of total degree `deg` that fit the shape, each once, in
      lexicographic order, and nothing once `deg` exceeds `sum(shape) - dim`. */
  lemma MonomialsOfDegree(deg: nat, shape: seq<nat>)
    requires |shape| >= 1 && PositiveShape(shape)
    ensures var rs := MonCombosLimited(Zeros(|shape|), deg, shape, 0);
            && StrictlySorted(rs)
            && (forall m :: m in rs <==> Fits(m, shape) && TotalDegree(m) == deg)
            && (forall p, q :: 0 <= p < q < |rs| ==> rs[p] != rs[q])
            && (deg > TotalDegree(shape) - |shape| ==> rs == [])
  {
    var rs := MonCombosLimited(Zeros(|shape|), deg, shape, 0);
    MonCombosSorted(Zeros(|shape|), deg, shape, 0);
    forall m
      ensures m in rs <==> Fits(m, shape) && TotalDegree(m) == deg
    {
      if Fits(m, shape) && TotalDegree(m) == deg {
        MonCombosComplete(Zeros(|shape|), deg, shape, 0, m);
      }
    }
    forall p, q | 0 <= p < q < |rs|
      ensures rs[p] != rs[q]
    {
      assert LexLess(rs[p], rs[q]);
    }
    if deg > TotalDegree(shape) - |shape| && rs != [] {
      FitsDegreeBound(rs[0], shape, 0);
    }
  }

  /** Every axis of `shape` cut down to at most k entries: the `slice(0, k)` on each axis. */
  function Clip(shape: seq<nat>, k: nat): (r: seq<nat>)
    ensures |r| == |shape|
    ensures forall i :: 0 <= i < |r| ==> r[i] == Min(shape[i], k)
  {
    seq(|shape|, i requires 0 <= i < |shape| => Min(shape[i], k))
  }

  /** Cutting the axes at a bound above the requested degree changes nothing in the
      enumeration: every exponent of a degree-`remaining` index is at most `remaining`. */
  lemma {:induction false} MonCombosClip(mon: seq<nat>, remaining: nat, shape: seq<nat>,
                                         curDim: nat, k: nat)
    requires |mon| == |shape| && curDim < |mon| && ZeroFrom(mon, curDim)
    requires remaining < k
    ensures MonCombosLimited(mon, remaining, Clip(shape, k), curDim)
            == MonCombosLimited(mon, remaining, shape, curDim)
    decreases |mon| - curDim, 1
  {
    if |mon| != curDim + 1 && remaining != 0 {
      var bound := Min(shape[curDim], remaining + 1);
      assert Min(Clip(shape, k)[curDim], remaining + 1) == bound;
      LoopClip(mon, remaining, shape, curDim, 0, bound, k);
    }
  }

  lemma {:induction false} LoopClip(mon: seq<nat>, remaining: nat, shape: seq<nat>,
                                    curDim: nat, i: nat, bound: nat, k: nat)
    requires |mon| == |shape| && curDim + 1 < |mon|
    requires ZeroFrom(mon, curDim + 1)
    requires bound <= remaining + 1 && bound <= shape[curDim]
    requires remaining < k
    ensures MonCombosLoop(mon, remaining, Clip(shape, k), curDim, i, bound)
            == MonCombosLoop(mon, remaining, shape, curDim, i, bound)
    decreases |mon| - curDim, 0, bound - i
  {
    var clipped := Clip(shape, k);
    assert bound <= clipped[curDim];
    if i < bound {
      LoopStep(mon, remaining, shape, curDim, i, bound);
      LoopStep(mon, remaining, clipped, curDim, i, bound);
      MonCombosClip(mon[curDim := i], remaining - i, shape, curDim + 1, k);
      LoopClip(mon, remaining, shape, curDim, i + 1, bound, k);
    }
  }
}

=== FILE: orthants.dfy ===
/** Enumeration of the 2^n boolean vectors in the order `itertools.product([False, True],
    repeat=n)` produces them. The subdivision code walks this sequence in three places: the
    mirror copy of a value block, the sign-change flags of the orthants, and the children of a
    split box. */
module Orthants {

  function Pow2(n: nat): (r: nat)
    ensures r >= 1
  {
    if n == 0 then 1 else 2 * Pow2(n - 1)
  }

  /** Prefixes every vector of `vs` with `b`. */
  function PrependAll(b: bool, vs: seq<seq<bool>>): (r: seq<seq<bool>>)
    ensures |r| == |vs|
    ensures forall p :: 0 <= p < |r| ==> r[p] == [b] + vs[p]
  {
    if |vs| == 0 then [] else [[b] + vs[0]] + PrependAll(b, vs[1..])
  }

  /** The product sequence: the first coordinate varies slowest and False comes before True. */
  function Product(n: nat): (r: seq<seq<bool>>)
    ensures |r| == Pow2(n)
    ensures forall p :: 0 <= p < |r| ==> |r[p]| == n
  {
    if n == 0 then [[]]
    else
      var rest := Product(n - 1);
      PrependAll(false, rest) + PrependAll(true, rest)
  }

  /** Position of `v` in the product sequence: `v` read as a binary number, most significant
      coordinate first, True as 1. */
  function Rank(v: seq<bool>): nat
  {
    if |v| == 0 then 0 else (if v[0] then Pow2(|v| - 1) else 0) + Rank(v[1..])
  }

  /** Every boolean vector of length n occurs in the product sequence, at its rank. */
  lemma {:induction false} ProductComplete(v: seq<bool>)
    ensures Rank(v) < Pow2(|v|)
    ensures Product(|v|)[Rank(v)] == v
  {
    if |v| > 0 {
      var n := |v|;
      var w := v[1..];
      ProductComplete(w);
      var h := Pow2(n - 1);
      var rw := Rank(w);
      var p := Rank(v);
      assert p == (if v[0] then h else 0) + rw;
      assert p < Pow2(n);
      ProductAt(n, p);
      assert (p >= h) == v[0];
      assert (if p < h then p else p - h) == rw;
      assert Product(n)[p] == [v[0]] + w;
      assert [v[0]] + w == v;
    }
  }

  /** Position p of the product sequence is p's leading bit followed by position p mod
      2^(n-1) of the shorter product. */
  lemma ProductAt(n: nat, p: nat)
    requires n > 0 && p < Pow2(n)
    ensures var h := Pow2(n - 1);
            var p' := if p < h then p else p - h;
            Product(n)[p] == [p >= h] + Product(n - 1)[p']
  {
    var rest := Product(n - 1);
    var h := Pow2(n - 1);
    if p < h {
      assert Product(n)[p] == PrependAll(false, rest)[p];
    } else {
      assert Product(n)[p] == PrependAll(true, rest)[p - h];
    }
  }

  /** Rank undoes the enumeration: the vector at position p has rank p. */
  lemma {:induction false} RankOfProduct(n: nat, p: nat)
    requires p < Pow2(n)
    ensures Rank(Product(n)[p]) == p
  {
    if n > 0 {
      var h := Pow2(n - 1);
      var p' := if p < h then p else p - h;
      assert p' < h;
      RankOfProduct(n - 1, p');
      var w := Product(n - 1)[p'];
      assert Rank(w) == p';
      ProductAt(n, p);
      var v := Product(n)[p];
      assert v == [p >= h] + w;
      assert v[1..] == w;
    }
  }

  /** The product sequence has no repeated vector. */
  lemma ProductDistinct(n: nat, p: nat, q: nat)
    requires p < Pow2(n) && q < Pow2(n)
    requires Product(n)[p] == Product(n)[q]
    ensures p == q
  {
    RankOfProduct(n, p);
    RankOfProduct(n, q);
  }

  /** Every vector of length n sits at exactly one position of the product sequence. */
  lemma ProductPositionUnique(v: seq<bool>)
    ensures exists p :: 0 <= p < Pow2(|v|) && Product(|v|)[p] == v
    ensures forall p, q ::
              (0 <= p < Pow2(|v|) && 0 <= q < Pow2(|v|) && Product(|v|)[p] == v && Product(|v|)[q] == v)
              ==> p == q
  {
    ProductComplete(v);
    forall p, q | 0 <= p < Pow2(|v|) && 0 <= q < Pow2(|v|)
                  && Product(|v|)[p] == v && Product(|v|)[q] == v
      ensures p == q
    {
      ProductDistinct(|v|, p, q);
    }
  }
}

=== FILE: sign_flags.dfy ===
/** The sign-change flags of `interval_approximate_nd` (the `return_bools` branch): the value
    block on the Chebyshev grid is cut into 2^n orthant blocks at the grid position of the
    split point, and an orthant is flagged unless its values are all positive or all negative. */
module SignFlags {
  import opened Orthants
  import opened MultiIndex
  import opened Tensors
  import Subintervals

  /** The split literal of the source: the binary value of the double 0.027860780181747646,
      which is 62736899622385 / 2^51. */
  const SPLIT: real := 62736899622385.0 / 2251799813685248.0

  /** `len(np.where(cheb_values > split)[0])`: how many grid values lie above the split. */
  function CountAbove(xs: seq<real>, split: real): (c: nat)
    ensures c <= |xs|
  {
    if |xs| == 0 then 0 else (if xs[0] > split then 1 else 0) + CountAbove(xs[1..], split)
  }

  predicate Decreasing(xs: seq<real>)
  {
    forall s, t :: 0 <= s < t < |xs| ==> xs[s] > xs[t]
  }

  /** On decreasing grid values (cos(k pi / deg) for k = 0..deg are), the count is the split
      position: exactly the grid points before it lie above the split. */
  lemma {:induction false} CountAboveDecreasing(xs: seq<real>, split: real)
    requires Decreasing(xs)
    ensures forall i :: 0 <= i < |xs| ==> (xs[i] > split <==> i < CountAbove(xs, split))
  {
    if |xs| > 0 {
      var rest := xs[1..];
      assert Decreasing(rest);
      CountAboveDecreasing(rest, split);
      forall i | 0 <= i < |xs|
        ensures xs[i] > split <==> i < CountAbove(xs, split)
      {
        if i > 0 {
          assert xs[i] == rest[i - 1];
        }
      }
    }
  }

  /** Grid index m lies in the orthant block with these sides: `slice(split_point, None)` on a
      True axis, `slice(None, split_point)` on a False axis. */
  predicate InOrthant(m: seq<nat>, side: seq<bool>, sp: nat)
  {
    |m| == |side| && forall i :: 0 <= i < |m| ==> (side[i] <==> sp <= m[i])
  }

  /** The sides of the orthant that holds m. */
  function SidesOf(m: seq<nat>, sp: nat): (side: seq<bool>)
    ensures InOrthant(m, side, sp)
  {
    seq(|m|, i requires 0 <= i < |m| => sp <= m[i])
  }

  /** Every grid index lies in exactly one orthant block, and that block is number
      `Rank(SidesOf(m, sp))` of the product loop. */
  lemma OrthantPartition(m: seq<nat>, sp: nat, k: nat)
    requires k < Pow2(|m|)
    ensures InOrthant(m, Product(|m|)[k], sp) <==> k == Rank(SidesOf(m, sp))
  {
    var side := SidesOf(m, sp);
    ProductComplete(side);
    if InOrthant(m, Product(|m|)[k], sp) {
      assert Product(|m|)[k] == side;
      ProductDistinct(|m|, k, Rank(side));
    }
  }

  /** First index value below k, followed by any index of `rest`. */
  function Layers(k: nat, rest: seq<seq<nat>>): seq<seq<nat>>
  {
    if k == 0 then [] else Layers(k - 1, rest) + PrependIndex(k - 1, rest)
  }

  /** All indices of a tensor of this shape, in C order. */
  function Grid(shape: seq<nat>): seq<seq<nat>>
    decreases |shape|
  {
    if |shape| == 0 then [[]] else Layers(shape[0], Grid(shape[1..]))
  }

  lemma {:induction false} LayersMembers(k: nat, rest: seq<seq<nat>>, m: seq<nat>)
    ensures m in Layers(k, rest) <==> |m| >= 1 && m[0] < k && m[1..] in rest
  {
    if k > 0 {
      LayersMembers(k - 1, rest, m);
      var here := PrependIndex(k - 1, rest);
      if m in here {
        var p :| 0 <= p < |here| && here[p] == m;
        assert m[1..] == rest[p];
      }
      if |m| >= 1 && m[0] == k - 1 && m[1..] in rest {
        var p :| 0 <= p < |rest| && rest[p] == m[1..];
        assert here[p] == m;
      }
    }
  }

  /** The grid enumerates exactly the indices that fit the shape. */
  lemma {:induction false} GridMembers(shape: seq<nat>, m: seq<nat>)
    ensures m in Grid(shape) <==> Fits(m, shape)
    decreases |shape|
  {
    if |shape| > 0 {
      LayersMembers(shape[0], Grid(shape[1..]), m);
      if |m| >= 1 {
        GridMembers(shape[1..], m[1..]);
        if Fits(m, shape) {
          assert Fits(m[1..], shape[1..]);
        }
        if m[0] < shape[0] && Fits(m[1..], shape[1..]) {
          forall i | 0 <= i < |m| ensures m[i] < shape[i] {
            if i > 0 {
              assert m[i] == m[1..][i - 1];
            }
          }
        }
      }
    } else {
      assert Grid(shape) == [[]];
    }
  }

  /** The indices of one orthant block of the value grid, in grid order. */
  function OrthantIndices(ms: seq<seq<nat>>, side: seq<bool>, sp: nat): (r: seq<seq<nat>>)
    ensures forall m :: m in r <==> m in ms && InOrthant(m, side, sp)
  {
    if |ms| == 0 then []
    else
      var rest := OrthantIndices(ms[1..], side, sp);
      assert forall m :: m in ms <==> m == ms[0] || m in ms[1..];
      if InOrthant(ms[0], side, sp) then [ms[0]] + rest else rest
  }

  /** `np.all(block > 0) or np.all(block < 0)`; an empty block passes, as `np.all` of nothing
      is True. */
  function UniformSign(values: Tensor, ms: seq<seq<nat>>): (u: bool)
    ensures u <==> (forall m :: m in ms ==> values.at(m) > 0.0)
                   || (forall m :: m in ms ==> values.at(m) < 0.0)
  {
    (forall k :: 0 <= k < |ms| ==> values.at(ms[k]) > 0.0)
    || (forall k :: 0 <= k < |ms| ==> values.at(ms[k]) < 0.0)
  }

  /** `change_sign`: one flag per orthant block in product order, True unless the block's
      values share one strict sign. */
  function ChangeSign(values: Tensor, chebValues: seq<real>): (flags: seq<bool>)
    ensures |flags| == Pow2(|values.shape|)
  {
    var n := |values.shape|;
    var sp := CountAbove(chebValues, SPLIT);
    var grid := Grid(values.shape);
    seq(Pow2(n), k requires 0 <= k < Pow2(n) =>
      !UniformSign(values, OrthantIndices(grid, Product(n)[k], sp)))
  }

  /** The flag of orthant k, stated over the grid indices themselves: False exactly when every
      value of the block is positive or every value is negative. */
  lemma ChangeSignMeaning(values: Tensor, chebValues: seq<real>, k: nat)
    requires k < Pow2(|values.shape|)
    ensures var n := |values.shape|;
            var sp := CountAbove(chebValues, SPLIT);
            var side := Product(n)[k];
            !ChangeSign(values, chebValues)[k]
            <==> (forall m :: Fits(m, values.shape) && InOrthant(m, side, sp) ==> values.at(m) > 0.0)
                 || (forall m :: Fits(m, values.shape) && InOrthant(m, side, sp) ==> values.at(m) < 0.0)
  {
    forall m {
      GridMembers(values.shape, m);
    }
  }

  /** A value block of one strict sign flags no orthant. */
  lemma UniformBlockNoFlags(values: Tensor, chebValues: seq<real>)
    requires (forall m :: Fits(m, values.shape) ==> values.at(m) > 0.0)
             || (forall m :: Fits(m, values.shape) ==> values.at(m) < 0.0)
    ensures forall k :: 0 <= k < Pow2(|values.shape|) ==> !ChangeSign(values, chebValues)[k]
  {
    forall k | 0 <= k < Pow2(|values.shape|)
      ensures !ChangeSign(values, chebValues)[k]
    {
      ChangeSignMeaning(values, chebValues, k);
    }
  }

  /** On decreasing grid values, orthant block k holds exactly the grid points whose coordinate
      on every True axis is at most the split and on every False axis above it. */
  lemma OrthantGeometry(m: seq<nat>, side: seq<bool>, chebValues: seq<real>, split: real)
    requires Decreasing(chebValues) && |m| == |side|
    requires forall i :: 0 <= i < |m| ==> m[i] < |chebValues|
    ensures InOrthant(m, side, CountAbove(chebValues, split))
            <==> forall i :: 0 <= i < |m| ==> (side[i] <==> chebValues[m[i]] <= split)
  {
    CountAboveDecreasing(chebValues, split);
  }

  /** The point of [-1, 1]^n at grid index m. */
  function GridPoint(m: seq<nat>, chebValues: seq<real>): (x: seq<real>)
    requires forall i :: 0 <= i < |m| ==> m[i] < |chebValues|
    ensures |x| == |m|
    ensures forall i :: 0 <= i < |m| ==> x[i] == chebValues[m[i]]
  {
    seq(|m|, i requires 0 <= i < |m| => chebValues[m[i]])
  }

  /** The split literal is exactly the point 2 RAND - 1 where the subdivision cuts [-1, 1]. */
  lemma SplitIsCut()
    ensures SPLIT == 2.0 * Subintervals.RAND - 1.0
    ensures Subintervals.SplitPoint(-1.0, 1.0) == SPLIT
  {
  }

  /** Orthant block k of the sign flags and child k of the reference box split on every axis
      agree: a grid point in block k lies in child k. */
  lemma OrthantInReferenceChild(m: seq<nat>, chebValues: seq<real>, k: nat)
    requires Decreasing(chebValues) && k < Pow2(|m|)
    requires forall i :: 0 <= i < |m| ==> m[i] < |chebValues|
    requires forall t :: 0 <= t < |chebValues| ==> -1.0 <= chebValues[t] <= 1.0
    requires InOrthant(m, Product(|m|)[k], CountAbove(chebValues, SPLIT))
    ensures var n := |m|;
            Subintervals.ValidAxes(Range(n), n)
            && Subintervals.Contains(
                 Subintervals.Children(Subintervals.Ones(n, -1.0), Subintervals.Ones(n, 1.0), Range(n))[k],
                 GridPoint(m, chebValues))
  {
    var n := |m|;
    var side := Product(n)[k];
    var x := GridPoint(m, chebValues);
    var dims := Range(n);
    assert Subintervals.ValidAxes(dims, n);
    OrthantGeometry(m, side, chebValues, SPLIT);
    var c := Subintervals.Child(Subintervals.Ones(n, -1.0), Subintervals.Ones(n, 1.0), dims, side);
    SplitIsCut();
    forall i | 0 <= i < n
      ensures c.lo[i] <= x[i] <= c.hi[i]
    {
      assert dims[i] == i;
    }
  }
}

=== FILE: stable_dim.dfy ===
/** `pick_stable_dim`: the first axis along which the division solver can divide stably. For a
    candidate axis d every function contributes n corner coefficients (the constant term for
    axis d, the highest pure power along each other axis), and d is accepted when some
    permutation pairs the n corner kinds with n distinct functions using only corners of
    magnitude at least tol. */
module StableDim {
  import opened MultiIndex
  import opened Tensors

  /** s without its entry at position i. */
  function RemoveAt(s: seq<nat>, i: nat): (r: seq<nat>)
    requires i < |s|
    ensures |r| == |s| - 1
    ensures multiset(r) == multiset(s) - multiset{s[i]}
  {
    assert s == s[..i] + [s[i]] + s[i + 1..];
    s[..i] + s[i + 1..]
  }

  /** `itertools.permutations(s)`: every entry in turn first, followed by the permutations of
      the rest. */
  function Perms(s: seq<nat>): (ps: seq<seq<nat>>)
    ensures forall p: seq<nat> :: p in ps ==> multiset(p) == multiset(s)
    decreases |s|, 1
  {
    if |s| == 0 then [[]] else PermsFrom(s, 0)
  }

  /** The permutations of s that start with one of s[i..]. */
  function PermsFrom(s: seq<nat>, i: nat): (ps: seq<seq<nat>>)
    requires i <= |s|
    ensures forall p: seq<nat> :: p in ps ==> multiset(p) == multiset(s)
    decreases |s|, 0, |s| - i
  {
    if i == |s| then []
    else
      var tails := Perms(RemoveAt(s, i));
      var here := PrependIndex(s[i], tails);
      assert forall p: seq<nat> :: p in here ==> multiset(p) == multiset(s) by {
        forall p: seq<nat> | p in here ensures multiset(p) == multiset(s) {
          var t :| 0 <= t < |here| && here[t] == p;
          assert tails[t] in tails;
          assert multiset(tails[t]) == multiset(s) - multiset{s[i]};
          assert multiset(p) == multiset{s[i]} + multiset(tails[t]);
          assert s[i] in multiset(s);
        }
      }
      here + PermsFrom(s, i + 1)
  }

  lemma {:induction false} PermsFromContains(s: seq<nat>, i: nat, j: nat, p: seq<nat>)
    requires i <= j < |s| && p in PrependIndex(s[j], Perms(RemoveAt(s, j)))
    ensures p in PermsFrom(s, i)
    decreases j - i
  {
    if i < j {
      PermsFromContains(s, i + 1, j, p);
    }
  }

  /** Every rearrangement of s is generated. */
  lemma {:induction false} PermsComplete(s: seq<nat>, p: seq<nat>)
    requires multiset(p) == multiset(s)
    ensures p in Perms(s)
    decreases |s|
  {
    assert |p| == |multiset(p)| == |s|;
    if |s| == 0 {
      assert p == [];
    } else {
      assert p[0] in multiset(p);
      var j :| 0 <= j < |s| && s[j] == p[0];
      var rest := RemoveAt(s, j);
      assert p == [p[0]] + p[1..];
      assert multiset(p[1..]) == multiset(rest);
      PermsComplete(rest, p[1..]);
      var tails := Perms(rest);
      var t :| 0 <= t < |tails| && tails[t] == p[1..];
      assert PrependIndex(s[j], tails)[t] == p;
      PermsFromContains(s, 0, j, p);
    }
  }

  /** p orders the numbers 0..n-1. */
  predicate IsPermutation(p: seq<nat>, n: nat)
  {
    multiset(p) == multiset(Range(n))
  }

  /** The permutations of 0..n-1 are exactly the members of `Perms(Range(n))`. */
  lemma PermsOfRange(n: nat, p: seq<nat>)
    ensures p in Perms(Range(n)) <==> IsPermutation(p, n)
  {
    if IsPermutation(p, n) {
      PermsComplete(Range(n), p);
    }
  }

  /** The function coefficients as the source expects them: at least one, all with n >= 1
      non-empty axes, and at least n of them so that every corner list can be indexed by a
      permutation of 0..n-1. */
  predicate WellShaped(coeffs: seq<Tensor>)
  {
    && |coeffs| >= 1
    && var n := |coeffs[0].shape|;
    && n >= 1 && |coeffs| >= n
    && forall j :: 0 <= j < |coeffs| ==> |coeffs[j].shape| == n && PositiveShape(coeffs[j].shape)
  }

  /** The index `spot` used for the corner of kind i when axis d is tried: all zeros, except the
      last position along axis i when i is not d. */
  function CornerSpot(shape: seq<nat>, d: nat, i: nat): (m: seq<nat>)
    requires i < |shape| && PositiveShape(shape)
    ensures Fits(m, shape)
  {
    if i != d then Zeros(|shape|)[i := shape[i] - 1] else Zeros(|shape|)
  }

  /** `corner_spots[i][j]`: the corner of kind i of function j. */
  function Corner(coeffs: seq<Tensor>, d: nat, i: nat, j: nat): real
    requires j < |coeffs| && i < |coeffs[j].shape| && PositiveShape(coeffs[j].shape)
  {
    coeffs[j].at(CornerSpot(coeffs[j].shape, d, i))
  }

  /** No corner paired by p is smaller than tol in magnitude. */
  predicate ValidPerm(coeffs: seq<Tensor>, d: nat, p: seq<nat>, tol: real)
    requires WellShaped(coeffs) && |p| == |coeffs[0].shape|
  {
    forall i :: 0 <= i < |p| ==> p[i] < |coeffs| && Abs(Corner(coeffs, d, i, p[i])) >= tol
  }

  /** The inner `for i, j in enumerate(perm)` loop from position i on: False at the first
      corner smaller than tol (the `break`), True when the loop runs out. */
  function PermPasses(coeffs: seq<Tensor>, d: nat, p: seq<nat>, tol: real, i: nat): (valid: bool)
    requires WellShaped(coeffs) && |p| == |coeffs[0].shape| && i <= |p|
    requires forall t :: 0 <= t < |p| ==> p[t] < |coeffs|
    ensures valid <==> forall t :: i <= t < |p| ==> Abs(Corner(coeffs, d, t, p[t])) >= tol
    decreases |p| - i
  {
    if i == |p| then true
    else if Abs(Corner(coeffs, d, i, p[i])) < tol then false
    else PermPasses(coeffs, d, p, tol, i + 1)
  }

  /** The outer `for perm in itertools.permutations(...)` loop from the k-th listed permutation
      on: it succeeds at the first permutation whose inner loop passes. */
  function AnyValid(coeffs: seq<Tensor>, d: nat, perms: seq<seq<nat>>, tol: real, k: nat)
    : (found: bool)
    requires WellShaped(coeffs) && k <= |perms|
    requires forall l :: 0 <= l < |perms| ==> |perms[l]| == |coeffs[0].shape|
    requires forall l, t :: 0 <= l < |perms| && 0 <= t < |perms[l]| ==> perms[l][t] < |coeffs|
    ensures found <==> exists l :: k <= l < |perms| && ValidPerm(coeffs, d, perms[l], tol)
    decreases |perms| - k
  {
    if k == |perms| then false
    else PermPasses(coeffs, d, perms[k], tol, 0) || AnyValid(coeffs, d, perms, tol, k + 1)
  }

  /** Axis d admits a stable division: some permutation of the corner kinds onto distinct
      functions avoids every small corner. */
  ghost predicate Stable(coeffs: seq<Tensor>, d: nat, tol: real)
    requires WellShaped(coeffs)
  {
    exists p :: |p| == |coeffs[0].shape| && IsPermutation(p, |p|) && ValidPerm(coeffs, d, p, tol)
  }

  /** The search of `pick_stable_dim` from axis d on. */
  function PickFrom(coeffs: seq<Tensor>, d: nat, tol: real): (r: int)
    requires WellShaped(coeffs) && d <= |coeffs[0].shape|
    ensures r == -1 || d <= r < |coeffs[0].shape|
    decreases |coeffs[0].shape| - d
  {
    var n := |coeffs[0].shape|;
    if d == n then -1
    else
      var perms := Perms(Range(n));
      PermsLengths(n);
      if AnyValid(coeffs, d, perms, tol, 0) then d else PickFrom(coeffs, d + 1, tol)
  }

  /** Every enumerated permutation of 0..n-1 has n entries, each below n. */
  lemma PermsLengths(n: nat)
    ensures forall k :: 0 <= k < |Perms(Range(n))| ==> |Perms(Range(n))[k]| == n
    ensures forall k, t :: 0 <= k < |Perms(Range(n))| && 0 <= t < |Perms(Range(n))[k]|
                           ==> Perms(Range(n))[k][t] < n
  {
    var perms := Perms(Range(n));
    forall k | 0 <= k < |perms| ensures |perms[k]| == n {
      assert perms[k] in perms;
      assert |multiset(perms[k])| == |multiset(Range(n))|;
    }
    forall k, t | 0 <= k < |perms| && 0 <= t < |perms[k]| ensures perms[k][t] < n {
      assert perms[k] in perms;
      assert perms[k][t] in multiset(perms[k]);
      assert perms[k][t] in multiset(Range(n));
      RangeMembers(n, perms[k][t]);
    }
  }

  /** Whether the enumerated search accepts axis d is exactly the existence of a valid
      permutation. */
  lemma SearchMatchesStable(coeffs: seq<Tensor>, d: nat, tol: real)
    requires WellShaped(coeffs)
    ensures var n := |coeffs[0].shape|;
            var perms := Perms(Range(n));
            (forall k :: 0 <= k < |perms| ==> |perms[k]| == n)
            && (forall k, t :: 0 <= k < |perms| && 0 <= t < |perms[k]| ==> perms[k][t] < n)
            && (AnyValid(coeffs, d, perms, tol, 0) <==> Stable(coeffs, d, tol))
  {
    var n := |coeffs[0].shape|;
    PermsLengths(n);
    if Stable(coeffs, d, tol) {
      var p :| |p| == n && IsPermutation(p, |p|) && ValidPerm(coeffs, d, p, tol);
      StableFound(coeffs, d, tol, p);
    }
    if AnyValid(coeffs, d, Perms(Range(n)), tol, 0) {
      FoundStable(coeffs, d, tol);
    }
  }

  /** A valid permutation of 0..n-1 is found by the enumerated search. */
  lemma StableFound(coeffs: seq<Tensor>, d: nat, tol: real, p: seq<nat>)
    requires WellShaped(coeffs) && |p| == |coeffs[0].shape|
    requires IsPermutation(p, |p|) && ValidPerm(coeffs, d, p, tol)
    ensures var n := |coeffs[0].shape|;
            exists k :: 0 <= k < |Perms(Range(n))| && |Perms(Range(n))[k]| == n
                        && ValidPerm(coeffs, d, Perms(Range(n))[k], tol)
  {
    var n := |coeffs[0].shape|;
    var perms := Perms(Range(n));
    PermsOfRange(n, p);
    var k :| 0 <= k < |perms| && perms[k] == p;
  }

  /** A permutation the search accepts witnesses stability. */
  lemma FoundStable(coeffs: seq<Tensor>, d: nat, tol: real)
    requires WellShaped(coeffs)
    requires var n := |coeffs[0].shape|;
             exists k :: 0 <= k < |Perms(Range(n))| && |Perms(Range(n))[k]| == n
                         && ValidPerm(coeffs, d, Perms(Range(n))[k], tol)
    ensures Stable(coeffs, d, tol)
  {
    var n := |coeffs[0].shape|;
    var perms := Perms(Range(n));
    var k :| 0 <= k < |perms| && |perms[k]| == n && ValidPerm(coeffs, d, perms[k], tol);
    PermsOfRange(n, perms[k]);
  }

  /** `pick_stable_dim(coeffs, tol)`: the smallest stable axis, or -1 when no axis is stable. */
  function PickStableDim(coeffs: seq<Tensor>, tol: real): (r: int)
    requires WellShaped(coeffs)
    ensures -1 <= r < |coeffs[0].shape|
    ensures r >= 0 ==> Stable(coeffs, r, tol)
    ensures forall d: nat :: (if r >= 0 then d < r else d < |coeffs[0].shape|) ==> !Stable(coeffs, d, tol)
  {
    PickFromCorrect(coeffs, 0, tol);
    PickFrom(coeffs, 0, tol)
  }

  lemma {:induction false} PickFromCorrect(coeffs: seq<Tensor>, d: nat, tol: real)
    requires WellShaped(coeffs) && d <= |coeffs[0].shape|
    ensures var r := PickFrom(coeffs, d, tol);
            && (r >= 0 ==> Stable(coeffs, r, tol))
            && forall e: nat :: d <= e && (if r >= 0 then e < r else e < |coeffs[0].shape|)
                 ==> !Stable(coeffs, e, tol)
    decreases |coeffs[0].shape| - d
  {
    if d < |coeffs[0].shape| {
      PickFromStep(coeffs, d, tol);
      PickFromCorrect(coeffs, d + 1, tol);
    }
  }

  /** One axis of the search: it stops at a stable axis and moves past an unstable one. */
  lemma PickFromStep(coeffs: seq<Tensor>, d: nat, tol: real)
    requires WellShaped(coeffs) && d < |coeffs[0].shape|
    ensures Stable(coeffs, d, tol) ==> PickFrom(coeffs, d, tol) == d
    ensures !Stable(coeffs, d, tol) ==> PickFrom(coeffs, d, tol) == PickFrom(coeffs, d + 1, tol)
  {
    SearchMatchesStable(coeffs, d, tol);
  }
}

=== FILE: subintervals.dfy ===
/** `get_subintervals`: the children of a box split at the fixed ratio RAND along chosen axes,
    optionally filtered through the subinterval checks evaluated on the matching children of
    the reference box [-1, 1]^n. */
module Subintervals {
  import opened Orthants
  import opened Affine
  import opened MultiIndex

  datatype Option<T> = None | Some(value: T)

  /** An axis-aligned box: lower corner `lo`, upper corner `hi`. */
  datatype Box = Box(lo: seq<real>, hi: seq<real>)

  /** The split ratio of every subdivision: the binary value of the source's double literal
      0.5139303900908738, which is 2314536713307633 / 2^52. */
  const RAND: real := 2314536713307633.0 / 4503599627370496.0

  /** Where an axis [a, b] is cut. */
  function SplitPoint(a: real, b: real): (s: real)
    ensures a <= b ==> a <= s <= b
  {
    a + RAND * (b - a)
  }

  /** The box is non-empty on every axis. */
  predicate Ordered(a: seq<real>, b: seq<real>)
  {
    |a| == |b| && forall i :: 0 <= i < |a| ==> a[i] <= b[i]
  }

  predicate Contains(box: Box, x: seq<real>)
  {
    |x| == |box.lo| == |box.hi| && forall i :: 0 <= i < |x| ==> box.lo[i] <= x[i] <= box.hi[i]
  }

  /** The axes to split: in range and without repeats, as `np.arange(dim)` always is. */
  predicate ValidAxes(dims: seq<nat>, n: nat)
  {
    && (forall k :: 0 <= k < |dims| ==> dims[k] < n)
    && (forall k, l :: 0 <= k < l < |dims| ==> dims[k] != dims[l])
  }

  /** For every split axis, the width of its lower part: the fraction RAND of the axis. */
  function Diffs1(a: seq<real>, b: seq<real>, dims: seq<nat>): (d: seq<real>)
    requires |a| == |b| && ValidAxes(dims, |a|)
    ensures |d| == |dims|
  {
    seq(|dims|, k requires 0 <= k < |dims| => (b[dims[k]] - a[dims[k]]) * RAND)
  }

  /** For every split axis, the width of its upper part: what RAND leaves of the axis. */
  function Diffs2(a: seq<real>, b: seq<real>, dims: seq<nat>): (d: seq<real>)
    requires |a| == |b| && ValidAxes(dims, |a|)
    ensures |d| == |dims|
  {
    seq(|dims|, k requires 0 <= k < |dims| =>
      (b[dims[k]] - a[dims[k]]) - (b[dims[k]] - a[dims[k]]) * RAND)
  }

  /** Splits the box on the listed axes from position k on, one axis at a time: a False bit
      raises that axis's lower end by its `d1` share, a True bit lowers its upper end by its
      `d2` share, and every other axis is left alone. */
  function ApplySplit(lo: seq<real>, hi: seq<real>, dims: seq<nat>, subset: seq<bool>,
                      d1: seq<real>, d2: seq<real>, k: nat): (r: Box)
    requires |lo| == |hi| && ValidAxes(dims, |lo|)
    requires |subset| == |dims| == |d1| == |d2| && k <= |dims|
    ensures |r.lo| == |r.hi| == |lo|
    ensures forall i :: 0 <= i < |lo| && i !in dims[k..] ==> r.lo[i] == lo[i] && r.hi[i] == hi[i]
    ensures forall l :: k <= l < |dims| ==>
              && r.lo[dims[l]] == lo[dims[l]] + (if subset[l] then 0.0 else d1[l])
              && r.hi[dims[l]] == hi[dims[l]] - (if subset[l] then d2[l] else 0.0)
    decreases |dims| - k
  {
    if k == |dims| then Box(lo, hi)
    else
      var d := dims[k];
      var lo' := lo[d := lo[d] + (if subset[k] then 0.0 else d1[k])];
      var hi' := hi[d := hi[d] - (if subset[k] then d2[k] else 0.0)];
      AxesTail(dims, |lo|, k);
      ApplySplit(lo', hi', dims, subset, d1, d2, k + 1)
  }

  /** The axis at position k is not repeated later, and an axis outside `dims[k..]` is neither
      it nor any later one. */
  lemma AxesTail(dims: seq<nat>, n: nat, k: nat)
    requires ValidAxes(dims, n) && k < |dims|
    ensures forall l :: k < l < |dims| ==> dims[l] != dims[k]
    ensures dims[k] !in dims[k + 1..]
    ensures forall i :: i !in dims[k..] ==> i != dims[k] && i !in dims[k + 1..]
  {
    assert dims[k..] == [dims[k]] + dims[k + 1..];
  }

  /** The child for one `subset` of the product loop. On a split axis a True bit keeps the
      lower part [a, a + RAND (b - a)] and a False bit the upper part [a + RAND (b - a), b];
      every other axis is copied. */
  function Child(a: seq<real>, b: seq<real>, dims: seq<nat>, subset: seq<bool>): (c: Box)
    requires |a| == |b| && ValidAxes(dims, |a|) && |subset| == |dims|
    ensures |c.lo| == |c.hi| == |a|
    ensures forall i :: 0 <= i < |a| && i !in dims ==> c.lo[i] == a[i] && c.hi[i] == b[i]
    ensures forall k :: 0 <= k < |dims| && subset[k] ==>
              c.lo[dims[k]] == a[dims[k]] && c.hi[dims[k]] == SplitPoint(a[dims[k]], b[dims[k]])
    ensures forall k :: 0 <= k < |dims| && !subset[k] ==>
              c.lo[dims[k]] == SplitPoint(a[dims[k]], b[dims[k]]) && c.hi[dims[k]] == b[dims[k]]
  {
    assert dims[0..] == dims;
    ApplySplit(a, b, dims, subset, Diffs1(a, b, dims), Diffs2(a, b, dims), 0)
  }

  /** The unchecked result of `get_subintervals`: one child per subset, in product order. */
  function Children(a: seq<real>, b: seq<real>, dims: seq<nat>): (cs: seq<Box>)
    requires |a| == |b| && ValidAxes(dims, |a|)
    ensures |cs| == Pow2(|dims|)
    ensures forall p :: 0 <= p < |cs| ==> cs[p] == Child(a, b, dims, Product(|dims|)[p])
  {
    var subsets := Product(|dims|);
    seq(|subsets|, p requires 0 <= p < |subsets| => Child(a, b, dims, subsets[p]))
  }

  /** One axis of a child of an ordered box lies inside the parent's axis. */
  lemma ChildAxisInside(a: seq<real>, b: seq<real>, dims: seq<nat>, subset: seq<bool>, i: nat)
    requires |a| == |b| && ValidAxes(dims, |a|) && |subset| == |dims| && i < |a| && a[i] <= b[i]
    ensures var c := Child(a, b, dims, subset);
            a[i] <= c.lo[i] <= c.hi[i] <= b[i]
  {
    if i in dims {
      var k :| 0 <= k < |dims| && dims[k] == i;
    }
  }

  /** Every child of an ordered box is an ordered box inside its parent. */
  lemma ChildrenInsideParent(a: seq<real>, b: seq<real>, dims: seq<nat>, p: nat)
    requires Ordered(a, b) && ValidAxes(dims, |a|) && p < Pow2(|dims|)
    ensures var c := Children(a, b, dims)[p];
            Ordered(c.lo, c.hi)
            && forall i :: 0 <= i < |a| ==> a[i] <= c.lo[i] && c.hi[i] <= b[i]
  {
    var subset := Product(|dims|)[p];
    forall i | 0 <= i < |a|
      ensures var c := Child(a, b, dims, subset);
              a[i] <= c.lo[i] <= c.hi[i] <= b[i]
    {
      ChildAxisInside(a, b, dims, subset, i);
    }
  }

  /** The child chosen by the side of x on every split axis contains x on axis i. */
  lemma ChildAxisContains(a: seq<real>, b: seq<real>, dims: seq<nat>, x: seq<real>, i: nat)
    requires |a| == |b| && ValidAxes(dims, |a|) && Contains(Box(a, b), x) && i < |x|
    ensures var c := Child(a, b, dims, SideOf(a, b, dims, x));
            c.lo[i] <= x[i] <= c.hi[i]
  {
    if i in dims {
      var k :| 0 <= k < |dims| && dims[k] == i;
    }
  }

  /** On every split axis: is x in the lower part? */
  function SideOf(a: seq<real>, b: seq<real>, dims: seq<nat>, x: seq<real>): (s: seq<bool>)
    requires |a| == |b| && ValidAxes(dims, |a|) && |x| == |a|
    ensures |s| == |dims|
  {
    seq(|dims|, k requires 0 <= k < |dims| => x[dims[k]] <= SplitPoint(a[dims[k]], b[dims[k]]))
  }

  /** The children cover the parent: every point of the box lies in some child. */
  lemma ChildrenCoverParent(a: seq<real>, b: seq<real>, dims: seq<nat>, x: seq<real>)
    requires |a| == |b| && ValidAxes(dims, |a|) && Contains(Box(a, b), x)
    ensures exists p :: 0 <= p < Pow2(|dims|) && Contains(Children(a, b, dims)[p], x)
  {
    var subset := SideOf(a, b, dims, x);
    ProductComplete(subset);
    var p := Rank(subset);
    forall i | 0 <= i < |x|
      ensures var c := Child(a, b, dims, subset);
              c.lo[i] <= x[i] <= c.hi[i]
    {
      ChildAxisContains(a, b, dims, x, i);
    }
    assert Contains(Children(a, b, dims)[p], x);
  }

  function Ones(n: nat, v: real): (r: seq<real>)
    ensures |r| == n
    ensures forall i :: 0 <= i < n ==> r[i] == v
  {
    seq(n, _ => v)
  }

  /** The children of the reference box [-1, 1]^n are mapped onto the children of [a, b] by
      `transform`, child for child: this is what lets the checks run on the reference children
      while the survivors are reported in the box's own coordinates. */
  lemma ReferenceChildrenTransform(a: seq<real>, b: seq<real>, dims: seq<nat>, p: nat)
    requires |a| == |b| && ValidAxes(dims, |a|) && p < Pow2(|dims|)
    ensures var n := |a|;
            var c := Children(a, b, dims)[p];
            var s := Children(Ones(n, -1.0), Ones(n, 1.0), dims)[p];
            c.lo == TransformPoint(s.lo, a, b) && c.hi == TransformPoint(s.hi, a, b)
  {
    ChildTransform(a, b, dims, Product(|dims|)[p]);
  }

  /** The same, for the child of one subset. */
  lemma ChildTransform(a: seq<real>, b: seq<real>, dims: seq<nat>, subset: seq<bool>)
    requires |a| == |b| && ValidAxes(dims, |a|) && |subset| == |dims|
    ensures var c := Child(a, b, dims, subset);
            var s := Child(Ones(|a|, -1.0), Ones(|a|, 1.0), dims, subset);
            c.lo == TransformPoint(s.lo, a, b) && c.hi == TransformPoint(s.hi, a, b)
  {
    var n := |a|;
    var c := Child(a, b, dims, subset);
    var s := Child(Ones(n, -1.0), Ones(n, 1.0), dims, subset);
    forall i | 0 <= i < n
      ensures c.lo[i] == Transform(s.lo[i], a[i], b[i]) && c.hi[i] == Transform(s.hi[i], a[i], b[i])
    {
      ChildAxisTransform(a, b, dims, subset, i);
    }
  }

  /** Axis i of the reference child maps onto axis i of the child. */
  lemma ChildAxisTransform(a: seq<real>, b: seq<real>, dims: seq<nat>, subset: seq<bool>, i: nat)
    requires |a| == |b| && ValidAxes(dims, |a|) && |subset| == |dims| && i < |a|
    ensures var c := Child(a, b, dims, subset);
            var s := Child(Ones(|a|, -1.0), Ones(|a|, 1.0), dims, subset);
            c.lo[i] == Transform(s.lo[i], a[i], b[i]) && c.hi[i] == Transform(s.hi[i], a[i], b[i])
  {
    assert Transform(2.0 * RAND - 1.0, a[i], b[i]) == SplitPoint(a[i], b[i]) by {
      AffineOffsets(2.0 * RAND - 1.0, a[i], b[i]);
    }
    if i in dims {
      var k :| 0 <= k < |dims| && dims[k] == i;
      assert SplitPoint(-1.0, 1.0) == 2.0 * RAND - 1.0;
    }
  }

  /* ---------------- the checked branch ---------------- */

  /** A subinterval check: `check(poly, scaled_subintervals, change_sign, approx_tol)` returns a
      keep-mask over the listed reference children. The checks themselves are not part of this
      model. */
  type SubintervalCheck<!P> = (P, seq<Box>, seq<bool>, real) -> seq<bool>

  /** The positions kept by `for i, result in enumerate(mask): if result: ...`. */
  function Kept(pos: seq<nat>, mask: seq<bool>): (r: seq<nat>)
    requires |mask| <= |pos|
    ensures forall x :: x in r ==> x in pos
    ensures StrictlyIncreasing(pos) ==> StrictlyIncreasing(r)
  {
    if |mask| == 0 then []
    else
      var rest := Kept(pos[1..], mask[1..]);
      assert forall x :: x in rest ==> x in pos[1..];
      if mask[0] then
        var r := [pos[0]] + rest;
        assert StrictlyIncreasing(pos) ==> StrictlyIncreasing(r) by {
          if StrictlyIncreasing(pos) {
            assert StrictlyIncreasing(pos[1..]);
            forall x | x in rest ensures pos[0] < x {
              var i :| 0 <= i < |pos[1..]| && pos[1..][i] == x;
              assert pos[i + 1] == x;
            }
            forall s, t | 0 <= s < t < |r| ensures r[s] < r[t] {
              if s == 0 {
                assert r[t] == rest[t - 1] && rest[t - 1] in rest;
              } else {
                assert r[s] == rest[s - 1] && r[t] == rest[t - 1];
              }
            }
          }
        }
        r
      else rest
  }

  /** A position survives the mask exactly when the mask entry paired with it is True. */
  lemma {:induction false} KeptMembers(pos: seq<nat>, mask: seq<bool>, x: nat)
    requires |mask| <= |pos|
    ensures x in Kept(pos, mask) <==> exists i :: 0 <= i < |mask| && mask[i] && pos[i] == x
  {
    if |mask| > 0 {
      KeptMembers(pos[1..], mask[1..], x);
      if x in Kept(pos[1..], mask[1..]) {
        var i :| 0 <= i < |mask[1..]| && mask[1..][i] && pos[1..][i] == x;
        assert mask[i + 1] && pos[i + 1] == x;
      }
      if i :| 0 <= i < |mask| && mask[i] && pos[i] == x {
        if i > 0 {
          assert mask[1..][i - 1] && pos[1..][i - 1] == x;
        }
      }
    }
  }

  /** One mask applied to the surviving positions; a mask longer than the list makes the loop
      index past its end, an IndexError, modelled as None. */
  function ApplyMask(pos: seq<nat>, mask: seq<bool>): (r: Option<seq<nat>>)
    ensures r.None? <==> |mask| > |pos|
    ensures r.Some? ==> forall x: nat :: x in r.value <==>
              exists i :: 0 <= i < |mask| && mask[i] && pos[i] == x
    ensures r.Some? && StrictlyIncreasing(pos) ==> StrictlyIncreasing(r.value)
  {
    if |mask| > |pos| then None
    else
      KeptAll(pos, mask);
      Some(Kept(pos, mask))
  }

  /** `KeptMembers` for every position at once. */
  lemma KeptAll(pos: seq<nat>, mask: seq<bool>)
    requires |mask| <= |pos|
    ensures forall x: nat :: x in Kept(pos, mask) <==> exists i :: 0 <= i < |mask| && mask[i] && pos[i] == x
  {
    forall x: nat
      ensures x in Kept(pos, mask) <==> exists i :: 0 <= i < |mask| && mask[i] && pos[i] == x
    {
      KeptMembers(pos, mask, x);
    }
  }

  /** Every mask the check returns is no longer than the list of boxes it judges. */
  ghost predicate MasksFit<P(!new)>(check: SubintervalCheck<P>, changeSign: seq<bool>, approxTol: real)
  {
    forall p, bs :: |check(p, bs, changeSign, approxTol)| <= |bs|
  }

  /** `for poly in polys:` — one check applied to every polynomial in turn. */
  function PolyLoop<P(!new)>(check: SubintervalCheck<P>, polys: seq<P>, scaled: seq<Box>,
                       pos: seq<nat>, changeSign: seq<bool>, approxTol: real)
    : (r: Option<seq<nat>>)
    requires InRange(pos, |scaled|)
    ensures r.Some? ==> InRange(r.value, |scaled|) && forall x :: x in r.value ==> x in pos
    ensures r.Some? && StrictlyIncreasing(pos) ==> StrictlyIncreasing(r.value)
    ensures MasksFit(check, changeSign, approxTol) ==> r.Some?
    decreases |polys|
  {
    if |polys| == 0 then Some(pos)
    else
      match ApplyMask(pos, check(polys[0], Select(scaled, pos), changeSign, approxTol))
      case None => None
      case Some(pos') =>
        assert forall t :: 0 <= t < |pos'| ==> pos'[t] in pos;
        PolyLoop(check, polys[1..], scaled, pos', changeSign, approxTol)
  }

  /** `for check in subinterval_checks:` around the polynomial loop. */
  function CheckLoop<P(!new)>(checks: seq<SubintervalCheck<P>>, polys: seq<P>, scaled: seq<Box>,
                        pos: seq<nat>, changeSign: seq<bool>, approxTol: real)
    : (r: Option<seq<nat>>)
    requires InRange(pos, |scaled|)
    ensures r.Some? ==> InRange(r.value, |scaled|) && forall x :: x in r.value ==> x in pos
    ensures r.Some? && StrictlyIncreasing(pos) ==> StrictlyIncreasing(r.value)
    ensures (forall c :: 0 <= c < |checks| ==> MasksFit(checks[c], changeSign, approxTol)) ==> r.Some?
    decreases |checks|
  {
    if |checks| == 0 then Some(pos)
    else
      match PolyLoop(checks[0], polys, scaled, pos, changeSign, approxTol)
      case None => None
      case Some(pos') =>
        assert forall c :: 0 <= c < |checks[1..]| ==> checks[1..][c] == checks[c + 1];
        CheckLoop(checks[1..], polys, scaled, pos', changeSign, approxTol)
  }

  /** Positions (in product order) of the children that survive every check. */
  function SurvivorPositions<P(!new)>(dims: seq<nat>, n: nat, checks: seq<SubintervalCheck<P>>,
                                polys: seq<P>, changeSign: seq<bool>, approxTol: real)
    : (r: Option<seq<nat>>)
    requires ValidAxes(dims, n)
    ensures r.Some? ==> StrictlyIncreasing(r.value) && InRange(r.value, Pow2(|dims|))
    ensures (forall c :: 0 <= c < |checks| ==> MasksFit(checks[c], changeSign, approxTol)) ==> r.Some?
  {
    var scaled := Children(Ones(n, -1.0), Ones(n, 1.0), dims);
    assert StrictlyIncreasing(Range(|scaled|));
    CheckLoop(checks, polys, scaled, Range(|scaled|), changeSign, approxTol)
  }

  /** `get_subintervals(a, b, dimensions, ..., check_subintervals)`. Without checks all 2^k
      children; with checks the survivors, in their original order; None where the source
      raises an IndexError. */
  function GetSubintervals<P(!new)>(a: seq<real>, b: seq<real>, dims: seq<nat>,
                              checks: seq<SubintervalCheck<P>>, polys: seq<P>,
                              changeSign: seq<bool>, approxTol: real, checkSubintervals: bool)
    : (r: Option<seq<Box>>)
    requires |a| == |b| && ValidAxes(dims, |a|)
    ensures !checkSubintervals ==> r == Some(Children(a, b, dims))
    ensures r.Some? ==> |r.value| <= Pow2(|dims|)
    ensures r.Some? ==> forall t :: 0 <= t < |r.value| ==> r.value[t] in Children(a, b, dims)
    ensures r.Some? ==> exists q :: StrictlyIncreasing(q) && InRange(q, Pow2(|dims|))
                                   && r.value == Select(Children(a, b, dims), q)
    ensures (forall c :: 0 <= c < |checks| ==> MasksFit(checks[c], changeSign, approxTol)) ==> r.Some?
  {
    var children := Children(a, b, dims);
    if !checkSubintervals then
      var all := Range(|children|);
      assert StrictlyIncreasing(all) && InRange(all, Pow2(|dims|));
      assert Select(children, all) == children;
      Some(children)
    else
      match SurvivorPositions(dims, |a|, checks, polys, changeSign, approxTol)
      case None => None
      case Some(q) =>
        StrictlyIncreasingBound(q, Pow2(|dims|));
        Some(Select(children, q))
  }

  /** The keep-mask of a check that judges every listed child on its own. */
  function PointwiseMask<P(!new)>(keep: (P, Box, seq<bool>, real) -> bool, poly: P, boxes: seq<Box>,
                            changeSign: seq<bool>, approxTol: real): (m: seq<bool>)
    ensures |m| == |boxes|
  {
    seq(|boxes|, i requires 0 <= i < |boxes| => keep(poly, boxes[i], changeSign, approxTol))
  }

  /** A check that decides each child by `keep` alone. */
  ghost predicate IsPointwise<P(!new)>(check: SubintervalCheck<P>, keep: (P, Box, seq<bool>, real) -> bool,
                           changeSign: seq<bool>, approxTol: real)
  {
    forall poly, boxes :: check(poly, boxes, changeSign, approxTol)
                          == PointwiseMask(keep, poly, boxes, changeSign, approxTol)
  }

  lemma {:induction false} PolyLoopPointwise<P(!new)>(check: SubintervalCheck<P>,
                                                keep: (P, Box, seq<bool>, real) -> bool,
                                                polys: seq<P>, scaled: seq<Box>, pos: seq<nat>,
                                                changeSign: seq<bool>, approxTol: real)
    requires InRange(pos, |scaled|) && IsPointwise(check, keep, changeSign, approxTol)
    ensures var r := PolyLoop(check, polys, scaled, pos, changeSign, approxTol);
            r.Some? && forall x: nat :: x in r.value <==>
              x in pos && forall j :: 0 <= j < |polys| ==> keep(polys[j], scaled[x], changeSign, approxTol)
    decreases |polys|
  {
    if |polys| > 0 {
      var mask := check(polys[0], Select(scaled, pos), changeSign, approxTol);
      assert mask == PointwiseMask(keep, polys[0], Select(scaled, pos), changeSign, approxTol);
      var pos' := Kept(pos, mask);
      assert forall t :: 0 <= t < |pos'| ==> pos'[t] in pos;
      PolyLoopPointwise(check, keep, polys[1..], scaled, pos', changeSign, approxTol);
      var r := PolyLoop(check, polys, scaled, pos, changeSign, approxTol);
      forall x: nat
        ensures x in r.value <==>
          x in pos && forall j :: 0 <= j < |polys| ==> keep(polys[j], scaled[x], changeSign, approxTol)
      {
        assert x in pos' <==> x in pos && keep(polys[0], scaled[x], changeSign, approxTol) by {
          KeptMembers(pos, mask, x);
          if x in pos {
            var i :| 0 <= i < |pos| && pos[i] == x;
            assert mask[i] == keep(polys[0], scaled[x], changeSign, approxTol);
          }
        }
        if x in pos && forall j :: 0 <= j < |polys| ==> keep(polys[j], scaled[x], changeSign, approxTol) {
          assert forall j :: 0 <= j < |polys| - 1 ==> polys[1..][j] == polys[j + 1];
        }
        if x in r.value {
          forall j | 0 <= j < |polys|
            ensures keep(polys[j], scaled[x], changeSign, approxTol)
          {
            if j > 0 {
              assert polys[1..][j - 1] == polys[j];
            }
          }
        }
      }
    }
  }

  lemma {:induction false} CheckLoopPointwise<P(!new)>(checks: seq<SubintervalCheck<P>>,
                                                 keeps: seq<(P, Box, seq<bool>, real) -> bool>,
                                                 polys: seq<P>, scaled: seq<Box>, pos: seq<nat>,
                                                 changeSign: seq<bool>, approxTol: real)
    requires InRange(pos, |scaled|) && |checks| == |keeps|
    requires forall c :: 0 <= c < |checks| ==> IsPointwise(checks[c], keeps[c], changeSign, approxTol)
    ensures var r := CheckLoop(checks, polys, scaled, pos, changeSign, approxTol);
            r.Some? && forall x: nat :: x in r.value <==>
              x in pos && Survives(keeps, polys, scaled, x, changeSign, approxTol)
    decreases |checks|
  {
    if |checks| > 0 {
      PolyLoopPointwise(checks[0], keeps[0], polys, scaled, pos, changeSign, approxTol);
      var pos' := PolyLoop(checks[0], polys, scaled, pos, changeSign, approxTol).value;
      CheckLoopPointwise(checks[1..], keeps[1..], polys, scaled, pos', changeSign, approxTol);
      var r := CheckLoop(checks, polys, scaled, pos, changeSign, approxTol);
      forall x: nat
        ensures x in r.value <==> x in pos && Survives(keeps, polys, scaled, x, changeSign, approxTol)
      {
        if x in pos && Survives(keeps, polys, scaled, x, changeSign, approxTol) {
          assert forall c :: 0 <= c < |keeps| - 1 ==> keeps[1..][c] == keeps[c + 1];
        }
        if x in r.value {
          forall c, j | 0 <= c < |keeps| && 0 <= j < |polys|
            ensures keeps[c](polys[j], scaled[x], changeSign, approxTol)
          {
            if c > 0 {
              assert keeps[1..][c - 1] == keeps[c];
            }
          }
        }
      }
    }
  }

  /** Reference child x passes every check for every polynomial. */
  ghost predicate Survives<P(!new)>(keeps: seq<(P, Box, seq<bool>, real) -> bool>, polys: seq<P>,
                              scaled: seq<Box>, x: nat, changeSign: seq<bool>, approxTol: real)
    requires x < |scaled|
  {
    forall c, j :: 0 <= c < |keeps| && 0 <= j < |polys| ==>
      keeps[c](polys[j], scaled[x], changeSign, approxTol)
  }

  /** With checks that judge each child on its own, the checked result is exactly the children
      whose reference child every check keeps for every polynomial, in product order. */
  lemma CheckedSubintervalsExact<P(!new)>(a: seq<real>, b: seq<real>, dims: seq<nat>,
                                    checks: seq<SubintervalCheck<P>>,
                                    keeps: seq<(P, Box, seq<bool>, real) -> bool>,
                                    polys: seq<P>, changeSign: seq<bool>, approxTol: real)
    requires |a| == |b| && ValidAxes(dims, |a|) && |checks| == |keeps|
    requires forall c :: 0 <= c < |checks| ==> IsPointwise(checks[c], keeps[c], changeSign, approxTol)
    ensures var scaled := Children(Ones(|a|, -1.0), Ones(|a|, 1.0), dims);
            var q := SurvivorPositions(dims, |a|, checks, polys, changeSign, approxTol);
            && q.Some?
            && GetSubintervals(a, b, dims, checks, polys, changeSign, approxTol, true)
               == Some(Select(Children(a, b, dims), q.value))
            && StrictlyIncreasing(q.value)
            && forall x: nat :: x in q.value <==>
                 x < Pow2(|dims|) && Survives(keeps, polys, scaled, x, changeSign, approxTol)
  {
    SurvivorsExact(dims, |a|, checks, keeps, polys, changeSign, approxTol);
  }

  /** The survivor positions under pointwise checks. */
  lemma SurvivorsExact<P(!new)>(dims: seq<nat>, n: nat, checks: seq<SubintervalCheck<P>>,
                                keeps: seq<(P, Box, seq<bool>, real) -> bool>,
                                polys: seq<P>, changeSign: seq<bool>, approxTol: real)
    requires ValidAxes(dims, n) && |checks| == |keeps|
    requires forall c :: 0 <= c < |checks| ==> IsPointwise(checks[c], keeps[c], changeSign, approxTol)
    ensures var scaled := Children(Ones(n, -1.0), Ones(n, 1.0), dims);
            var q := SurvivorPositions(dims, n, checks, polys, changeSign, approxTol);
            && q.Some?
            && forall x: nat :: x in q.value <==>
                 x < Pow2(|dims|) && Survives(keeps, polys, scaled, x, changeSign, approxTol)
  {
    var scaled := Children(Ones(n, -1.0), Ones(n, 1.0), dims);
    var pos := Range(|scaled|);
    CheckLoopPointwise(checks, keeps, polys, scaled, pos, changeSign, approxTol);
    var q := CheckLoop(checks, polys, scaled, pos, changeSign, approxTol);
    forall x: nat
      ensures x in q.value <==> x < |scaled| && Survives(keeps, polys, scaled, x, changeSign, approxTol)
    {
      RangeMembers(|scaled|, x);
    }
  }
}

=== FILE: tensors.dfy ===
/** Dense coefficient and value tensors: a shape and the entry at every multi-index. Only the
    entries at indices that fit the shape are meaningful; slicing a tensor down on every axis
    keeps the entries and shrinks the shape. */
module Tensors {
  import opened MultiIndex

  datatype Tensor = Tensor(shape: seq<nat>, at: seq<nat> -> real)

  function Abs(x: real): (r: real)
    ensures r >= 0.0
    ensures r == x || r == -x
  {
    if x < 0.0 then -x else x
  }

  /** The absolute mass of the listed entries: the sum of their magnitudes, counted once per
      listing. */
  function AbsSum(t: Tensor, ms: seq<seq<nat>>): (s: real)
    ensures s >= 0.0
    ensures |ms| == 0 ==> s == 0.0
  {
    if |ms| == 0 then 0.0 else Abs(t.at(ms[0])) + AbsSum(t, ms[1..])
  }

  /** The mass depends only on the listed entries. */
  lemma {:induction false} AbsSumCongruent(t: Tensor, u: Tensor, ms: seq<seq<nat>>)
    requires forall m :: m in ms ==> t.at(m) == u.at(m)
    ensures AbsSum(t, ms) == AbsSum(u, ms)
  {
    if |ms| > 0 {
      assert ms[0] in ms;
      AbsSumCongruent(t, u, ms[1..]);
    }
  }

  /** n copies of k: the shape `tuple([k]*n)`. */
  function Repeat(k: nat, n: nat): (r: seq<nat>)
    ensures |r| == n
    ensures forall i :: 0 <= i < n ==> r[i] == k
  {
    seq(n, _ => k)
  }
}

=== FILE: trim.dfy ===
/** `trim_coeffs`: lower the degree of every Chebyshev approximation one total-degree layer at a
    time while the accumulated absolute mass of the removed coefficients stays below
    `approx_tol`, and after every pass ask `pick_stable_dim` for an axis to divide along. */
module Trim {
  import opened MultiIndex
  import opened Tensors
  import opened StableDim

  /** One function's entries of the parallel lists of `trim_coeffs`: `coeffs[num]`,
      `degrees[num]` and `error[num]`. */
  datatype TrimState = TrimState(coeff: Tensor, degree: nat, error: real)

  /** `mon_combos_limited([0]*dim, deg, shape)`: the indices of one total-degree layer. */
  function Layer(shape: seq<nat>, deg: nat): (ms: seq<seq<nat>>)
    requires |shape| >= 1
  {
    MonCombosLimited(Zeros(|shape|), deg, shape, 0)
  }

  /** Zeroes the listed entries, then keeps only the first deg entries on every axis. */
  function Cut(t: Tensor, ms: seq<seq<nat>>, deg: nat): (r: Tensor)
    ensures r.shape == Clip(t.shape, deg)
    ensures forall m :: r.at(m) == if m in ms then 0.0 else t.at(m)
  {
    Tensor(Clip(t.shape, deg), m => if m in ms then 0.0 else t.at(m))
  }

  /** The body of the inner loop for one function. A function at degree 1 or below, or whose
      layer is empty, is skipped; otherwise its top layer is removed exactly when the running
      error stays strictly below approxTol. */
  function TrimStep(s: TrimState, approxTol: real): (r: TrimState)
    requires |s.coeff.shape| >= 1 && PositiveShape(s.coeff.shape)
    ensures r.degree == s.degree ==> r == s
    ensures r.degree != s.degree <==>
              && s.degree >= 2
              && |Layer(s.coeff.shape, s.degree)| > 0
              && s.error + AbsSum(s.coeff, Layer(s.coeff.shape, s.degree)) < approxTol
    ensures r.degree != s.degree ==>
              && r.degree + 1 == s.degree
              && r.coeff.shape == Clip(s.coeff.shape, s.degree)
              && r.error == s.error + AbsSum(s.coeff, Layer(s.coeff.shape, s.degree))
              && forall m :: Fits(m, r.coeff.shape) ==>
                   r.coeff.at(m) == if TotalDegree(m) == s.degree then 0.0 else s.coeff.at(m)
  {
    if s.degree <= 1 then s
    else
      var mons := Layer(s.coeff.shape, s.degree);
      if |mons| == 0 then s
      else
        var sliceError := AbsSum(s.coeff, mons);
        if s.error + sliceError < approxTol then
          MonomialsOfDegree(s.degree, s.coeff.shape);
          TrimState(Cut(s.coeff, mons, s.degree), s.degree - 1, s.error + sliceError)
        else
          s
  }

  /** Total absolute mass of the original coefficients on the layers lo+1 .. hi. */
  function RemovedMass(orig: Tensor, lo: nat, hi: nat): (e: real)
    requires |orig.shape| >= 1
    ensures e >= 0.0
    decreases hi - lo
  {
    if hi <= lo then 0.0
    else AbsSum(orig, Layer(orig.shape, lo + 1)) + RemovedMass(orig, lo + 1, hi)
  }

  /** `np.sum(shape) - dim`, the starting degree of every function: the largest total degree
      of any index into a tensor of this shape, reached at the corner index. */
  function TopDegree(shape: seq<nat>): (d: nat)
    requires PositiveShape(shape)
    ensures forall m :: Fits(m, shape) ==> TotalDegree(m) <= d
    ensures TotalDegree(TopCorner(shape)) == d
  {
    TopCornerSum(shape, 0);
    DegreeBoundAll(shape);
    TotalDegree(shape) - |shape|
  }

  /** What trimming a function that started as `orig` at degree `top` has done so far: the
      degree only went down, the shape is cut to the current degree, every coefficient of a
      removed layer is zero and every other coefficient is the original, and the error is
      the original mass of the removed layers, below approxTol once anything was removed. */
  ghost predicate TrimmedFrom(orig: Tensor, top: nat, s: TrimState, approxTol: real)
  {
    && |orig.shape| >= 1 && PositiveShape(orig.shape)
    && s.degree <= top
    && (s.degree == top ==> s.coeff.shape == orig.shape && s.error == 0.0)
    && (s.degree < top ==>
          1 <= s.degree && s.coeff.shape == Clip(orig.shape, s.degree + 1) && s.error < approxTol)
    && (forall m :: Fits(m, s.coeff.shape) ==>
          s.coeff.at(m) == if s.degree < TotalDegree(m) <= top then 0.0 else orig.at(m))
    && s.error == RemovedMass(orig, s.degree, top)
  }

  lemma ClipClip(shape: seq<nat>, j: nat, k: nat)
    requires j <= k
    ensures Clip(Clip(shape, k), j) == Clip(shape, j)
  {
  }

  lemma ClipPositive(shape: seq<nat>, k: nat)
    requires PositiveShape(shape) && k >= 1
    ensures PositiveShape(Clip(shape, k))
  {
  }

  /** A shape the trimmed tensor can have. */
  lemma TrimmedShape(orig: Tensor, top: nat, s: TrimState, approxTol: real)
    requires TrimmedFrom(orig, top, s, approxTol)
    ensures |s.coeff.shape| == |orig.shape| && PositiveShape(s.coeff.shape)
  {
    if s.degree < top {
      ClipPositive(orig.shape, s.degree + 1);
    }
  }

  /** The starting state: nothing removed yet. */
  lemma TrimmedStart(orig: Tensor, top: nat, approxTol: real)
    requires |orig.shape| >= 1 && PositiveShape(orig.shape)
    ensures TrimmedFrom(orig, top, TrimState(orig, top, 0.0), approxTol)
  {
  }

  /** One step keeps the description: the layer the step removes is the original layer, and
      its mass is the original mass. */
  lemma TrimStepPreserves(orig: Tensor, top: nat, s: TrimState, approxTol: real)
    requires TrimmedFrom(orig, top, s, approxTol)
    ensures |s.coeff.shape| >= 1 && PositiveShape(s.coeff.shape)
    ensures TrimmedFrom(orig, top, TrimStep(s, approxTol), approxTol)
  {
    TrimmedShape(orig, top, s, approxTol);
    if TrimStep(s, approxTol).degree != s.degree {
      TrimStepRemovesLayer(orig, top, s, approxTol);
    }
  }

  /** The layer seen by the step is the original layer, with the original entries. */
  lemma TrimmedLayer(orig: Tensor, top: nat, s: TrimState, approxTol: real)
    requires TrimmedFrom(orig, top, s, approxTol)
    ensures |s.coeff.shape| >= 1 && PositiveShape(s.coeff.shape)
    ensures Layer(s.coeff.shape, s.degree) == Layer(orig.shape, s.degree)
    ensures AbsSum(s.coeff, Layer(orig.shape, s.degree)) == AbsSum(orig, Layer(orig.shape, s.degree))
  {
    TrimmedShape(orig, top, s, approxTol);
    LayerOfCutShape(orig.shape, s.coeff.shape, s.degree, top);
    LayerMass(orig, s.coeff, s.degree, top);
  }

  /** Cutting the shape at deg + 1 does not change the layer of degree deg. */
  lemma LayerOfCutShape(shape: seq<nat>, cut: seq<nat>, deg: nat, top: nat)
    requires |shape| >= 1
    requires deg <= top && (deg == top ==> cut == shape)
    requires deg < top ==> cut == Clip(shape, deg + 1)
    ensures Layer(cut, deg) == Layer(shape, deg)
  {
    if deg < top {
      MonCombosClip(Zeros(|shape|), deg, shape, 0, deg + 1);
    }
  }

  /** The trimmed tensor still holds the original coefficients of its top layer. */
  lemma LayerMass(orig: Tensor, t: Tensor, deg: nat, top: nat)
    requires |t.shape| >= 1 && PositiveShape(t.shape)
    requires |orig.shape| >= 1 && Layer(t.shape, deg) == Layer(orig.shape, deg)
    requires forall m :: Fits(m, t.shape) ==>
               t.at(m) == if deg < TotalDegree(m) <= top then 0.0 else orig.at(m)
    ensures AbsSum(t, Layer(orig.shape, deg)) == AbsSum(orig, Layer(orig.shape, deg))
  {
    var mons := Layer(orig.shape, deg);
    MonomialsOfDegree(deg, t.shape);
    forall m | m in mons ensures t.at(m) == orig.at(m) {
      assert Fits(m, t.shape) && TotalDegree(m) == deg;
    }
    AbsSumCongruent(t, orig, mons);
  }

  /** A step that trims keeps the description: shape, error and entries, each by its own
      lemma. */
  lemma TrimStepRemovesLayer(orig: Tensor, top: nat, s: TrimState, approxTol: real)
    requires TrimmedFrom(orig, top, s, approxTol)
    requires |s.coeff.shape| >= 1 && PositiveShape(s.coeff.shape)
    requires TrimStep(s, approxTol).degree != s.degree
    ensures TrimmedFrom(orig, top, TrimStep(s, approxTol), approxTol)
  {
    RemovedLayerShape(orig, top, s, approxTol);
    RemovedLayerError(orig, top, s, approxTol);
    RemovedLayerEntries(orig, top, s, approxTol);
  }

  /** After a trim the shape is the original cut to the old degree. */
  lemma RemovedLayerShape(orig: Tensor, top: nat, s: TrimState, approxTol: real)
    requires TrimmedFrom(orig, top, s, approxTol)
    requires |s.coeff.shape| >= 1 && PositiveShape(s.coeff.shape)
    requires TrimStep(s, approxTol).degree != s.degree
    ensures var r := TrimStep(s, approxTol);
            1 <= r.degree < top && r.coeff.shape == Clip(orig.shape, r.degree + 1)
  {
    var deg := s.degree;
    if deg < top {
      ClipClip(orig.shape, deg, deg + 1);
    }
  }

  /** After a trim the error is the original mass of every removed layer, below approxTol. */
  lemma RemovedLayerError(orig: Tensor, top: nat, s: TrimState, approxTol: real)
    requires TrimmedFrom(orig, top, s, approxTol)
    requires |s.coeff.shape| >= 1 && PositiveShape(s.coeff.shape)
    requires TrimStep(s, approxTol).degree != s.degree
    ensures var r := TrimStep(s, approxTol);
            r.error == RemovedMass(orig, r.degree, top) && r.error < approxTol
  {
    var deg := s.degree;
    TrimmedLayer(orig, top, s, approxTol);
    assert RemovedMass(orig, deg - 1, top)
           == AbsSum(orig, Layer(orig.shape, deg)) + RemovedMass(orig, deg, top);
  }

  /** After a trim the entries are the original ones, except on the removed layers. */
  lemma RemovedLayerEntries(orig: Tensor, top: nat, s: TrimState, approxTol: real)
    requires TrimmedFrom(orig, top, s, approxTol)
    requires |s.coeff.shape| >= 1 && PositiveShape(s.coeff.shape)
    requires TrimStep(s, approxTol).degree != s.degree
    ensures var r := TrimStep(s, approxTol);
            forall m :: Fits(m, r.coeff.shape) ==>
              r.coeff.at(m) == if r.degree < TotalDegree(m) <= top then 0.0 else orig.at(m)
  {
    var r := TrimStep(s, approxTol);
    forall m | Fits(m, r.coeff.shape)
      ensures r.coeff.at(m) == if r.degree < TotalDegree(m) <= top then 0.0 else orig.at(m)
    {
      assert Fits(m, s.coeff.shape);
    }
  }

  function CoeffsOf(states: seq<TrimState>): (ts: seq<Tensor>)
    ensures |ts| == |states|
    ensures forall k :: 0 <= k < |states| ==> ts[k] == states[k].coeff
  {
    seq(|states|, k requires 0 <= k < |states| => states[k].coeff)
  }

  function SumDegrees(states: seq<TrimState>): nat
  {
    if |states| == 0 then 0 else states[0].degree + SumDegrees(states[1..])
  }

  /** A pass that lowers no degree leaves the sum as it was; one that lowers some degree
      lowers the sum. */
  lemma {:induction false} SumDegreesDrops(before: seq<TrimState>, after: seq<TrimState>)
    requires |before| == |after|
    requires forall k :: 0 <= k < |before| ==> after[k].degree <= before[k].degree
    ensures SumDegrees(after) <= SumDegrees(before)
    ensures (exists k :: 0 <= k < |before| && after[k].degree != before[k].degree)
            ==> SumDegrees(after) < SumDegrees(before)
  {
    if |before| > 0 {
      SumDegreesDrops(before[1..], after[1..]);
      if exists k :: 0 <= k < |before| && after[k].degree != before[k].degree {
        var k :| 0 <= k < |before| && after[k].degree != before[k].degree;
        if k > 0 {
          assert after[1..][k - 1].degree != before[1..][k - 1].degree;
        }
      }
    }
  }

  /** All functions described by `TrimmedFrom` against their originals. */
  ghost predicate AllTrimmed(coeffs: seq<Tensor>, top: nat, states: seq<TrimState>, approxTol: real)
  {
    |states| == |coeffs|
    && forall k :: 0 <= k < |coeffs| ==> TrimmedFrom(coeffs[k], top, states[k], approxTol)
  }

  lemma AllTrimmedShaped(coeffs: seq<Tensor>, top: nat, states: seq<TrimState>, approxTol: real)
    requires WellShaped(coeffs) && AllTrimmed(coeffs, top, states, approxTol)
    ensures WellShaped(CoeffsOf(states)) && |CoeffsOf(states)[0].shape| == |coeffs[0].shape|
  {
    forall k | 0 <= k < |coeffs|
      ensures |states[k].coeff.shape| == |coeffs[k].shape| && PositiveShape(states[k].coeff.shape)
    {
      TrimmedShape(coeffs[k], top, states[k], approxTol);
    }
  }

  /** Every state can take a step. */
  predicate Steppable(states: seq<TrimState>)
  {
    forall k :: 0 <= k < |states| ==> |states[k].coeff.shape| >= 1 && PositiveShape(states[k].coeff.shape)
  }

  /** One pass of the `for num, coeff in enumerate(coeffs)` loop: the functions are trimmed
      independently of each other. */
  function Pass(states: seq<TrimState>, approxTol: real): (next: seq<TrimState>)
    requires Steppable(states)
    ensures |next| == |states|
    ensures forall k :: 0 <= k < |states| ==> next[k] == TrimStep(states[k], approxTol)
  {
    seq(|states|, k requires 0 <= k < |states| => TrimStep(states[k], approxTol))
  }

  /** The `changed` flag of a pass. */
  predicate Changed(states: seq<TrimState>, next: seq<TrimState>)
    requires |next| == |states|
  {
    exists k :: 0 <= k < |states| && next[k].degree != states[k].degree
  }

  /** A pass keeps every function described by `TrimmedFrom`, never raises the sum of the
      degrees, lowers it when it changes anything, and otherwise leaves the tensors alone. */
  lemma PassPreserves(coeffs: seq<Tensor>, top: nat, states: seq<TrimState>, approxTol: real)
    requires WellShaped(coeffs) && AllTrimmed(coeffs, top, states, approxTol)
    ensures Steppable(states)
    ensures var next := Pass(states, approxTol);
            && AllTrimmed(coeffs, top, next, approxTol)
            && WellShaped(CoeffsOf(next))
            && SumDegrees(next) <= SumDegrees(states)
            && (Changed(states, next) ==> SumDegrees(next) < SumDegrees(states))
            && (!Changed(states, next) ==> CoeffsOf(next) == CoeffsOf(states))
  {
    forall k | 0 <= k < |states|
      ensures |states[k].coeff.shape| >= 1 && PositiveShape(states[k].coeff.shape)
    {
      TrimmedShape(coeffs[k], top, states[k], approxTol);
    }
    var next := Pass(states, approxTol);
    forall k | 0 <= k < |coeffs|
      ensures TrimmedFrom(coeffs[k], top, next[k], approxTol)
    {
      TrimStepPreserves(coeffs[k], top, states[k], approxTol);
    }
    SumDegreesDrops(states, next);
    AllTrimmedShaped(coeffs, top, next, approxTol);
  }

  /** The outputs of `trim_coeffs` read back as states. */
  lemma Reassemble(states: seq<TrimState>)
    ensures forall k :: 0 <= k < |states| ==>
              TrimState(CoeffsOf(states)[k], Degrees(states)[k], Errors(states)[k]) == states[k]
  {
  }

  /** The function is past trimming: a further pass would leave it as it is. */
  ghost predicate Exhausted(s: TrimState, approxTol: real)
  {
    |s.coeff.shape| >= 1 && PositiveShape(s.coeff.shape) && TrimStep(s, approxTol) == s
  }

  /** The first pass would trim the function from its starting state. */
  predicate FirstPassTrims(c: Tensor, top: nat, approxTol: real)
  {
    |c.shape| >= 1 && PositiveShape(c.shape) && TrimStep(TrimState(c, top, 0.0), approxTol).degree != top
  }

  /** Every function at the starting degree with no error yet. */
  function Start(coeffs: seq<Tensor>, top: nat): (states: seq<TrimState>)
    ensures |states| == |coeffs|
    ensures forall k :: 0 <= k < |coeffs| ==> states[k] == TrimState(coeffs[k], top, 0.0)
  {
    seq(|coeffs|, k requires 0 <= k < |coeffs| => TrimState(coeffs[k], top, 0.0))
  }

  /** A function the first pass can trim stays below the starting degree after every later
      pass, since no pass raises a degree. */
  lemma PassKeepsProgress(coeffs: seq<Tensor>, top: nat, states: seq<TrimState>, approxTol: real,
                          firstTime: bool)
    requires Steppable(states) && |states| == |coeffs|
    requires firstTime ==> states == Start(coeffs, top)
    requires !firstTime ==> forall k :: 0 <= k < |coeffs| && FirstPassTrims(coeffs[k], top, approxTol)
                                        ==> states[k].degree < top
    ensures forall k :: 0 <= k < |coeffs| && FirstPassTrims(coeffs[k], top, approxTol)
                        ==> Pass(states, approxTol)[k].degree < top
  {
    var next := Pass(states, approxTol);
    forall k | 0 <= k < |coeffs| && FirstPassTrims(coeffs[k], top, approxTol)
      ensures next[k].degree < top
    {
      if firstTime {
        assert states[k] == TrimState(coeffs[k], top, 0.0);
      }
    }
  }

  /** A pass that changes no degree leaves every function exhausted. */
  lemma UnchangedExhausted(states: seq<TrimState>, approxTol: real)
    requires Steppable(states) && !Changed(states, Pass(states, approxTol))
    ensures forall k :: 0 <= k < |states| ==> Exhausted(Pass(states, approxTol)[k], approxTol)
  {
    var next := Pass(states, approxTol);
    forall k | 0 <= k < |states|
      ensures Exhausted(next[k], approxTol)
    {
      assert next[k].degree == states[k].degree;
      assert next[k] == states[k];
    }
  }

  /** What the method returns after a pass: the pass's tensors, degrees and errors, still
      described by `TrimmedFrom`, with the first pass's progress kept, and exhausted when the
      pass was not the first and changed nothing. */
  lemma Finish(coeffs: seq<Tensor>, top: nat, states: seq<TrimState>, approxTol: real, firstTime: bool)
    requires WellShaped(coeffs) && AllTrimmed(coeffs, top, states, approxTol) && Steppable(states)
    requires firstTime ==> states == Start(coeffs, top)
    requires !firstTime ==> forall k :: 0 <= k < |coeffs| && FirstPassTrims(coeffs[k], top, approxTol)
                                        ==> states[k].degree < top
    ensures var next := Pass(states, approxTol);
            var polys := CoeffsOf(next);
            && |polys| == |Degrees(next)| == |Errors(next)| == |coeffs|
            && WellShaped(polys)
            && (forall k :: 0 <= k < |coeffs| ==>
                  TrimmedFrom(coeffs[k], top, TrimState(polys[k], Degrees(next)[k], Errors(next)[k]), approxTol))
            && (forall k :: 0 <= k < |coeffs| && FirstPassTrims(coeffs[k], top, approxTol)
                  ==> Degrees(next)[k] < top)
            && (!firstTime && !Changed(states, next) ==> forall k :: 0 <= k < |coeffs| ==>
                  Exhausted(TrimState(polys[k], Degrees(next)[k], Errors(next)[k]), approxTol))
  {
    var next := Pass(states, approxTol);
    PassPreserves(coeffs, top, states, approxTol);
    PassKeepsProgress(coeffs, top, states, approxTol, firstTime);
    if !firstTime && !Changed(states, next) {
      UnchangedExhausted(states, approxTol);
    }
    Reassemble(next);
  }

  /** `trim_coeffs(coeffs, approx_tol, tol)`. Returns the trimmed tensors, the division axis
      (-1: subdivide instead), and the final degree and error of every function. */
  method TrimCoeffs(coeffs: seq<Tensor>, approxTol: real, tol: real)
    returns (polys: seq<Tensor>, divisor: int, degrees: seq<nat>, errors: seq<real>)
    requires WellShaped(coeffs) && |coeffs| == |coeffs[0].shape|
    ensures |polys| == |degrees| == |errors| == |coeffs|
    ensures WellShaped(polys)
    ensures divisor == PickStableDim(polys, tol)
    ensures forall k :: 0 <= k < |coeffs| ==>
              TrimmedFrom(coeffs[k], TopDegree(coeffs[0].shape),
                          TrimState(polys[k], degrees[k], errors[k]), approxTol)
    ensures divisor == -1 ==> forall k :: 0 <= k < |coeffs| ==>
              Exhausted(TrimState(polys[k], degrees[k], errors[k]), approxTol)
    ensures forall k :: 0 <= k < |coeffs| && FirstPassTrims(coeffs[k], TopDegree(coeffs[0].shape), approxTol)
              ==> degrees[k] < TopDegree(coeffs[0].shape)
  {
    var top := TopDegree(coeffs[0].shape);
    var states := Start(coeffs, top);
    forall k | 0 <= k < |coeffs|
      ensures TrimmedFrom(coeffs[k], top, states[k], approxTol)
    {
      TrimmedStart(coeffs[k], top, approxTol);
    }
    var firstTime := true;
    while true
      invariant AllTrimmed(coeffs, top, states, approxTol)
      invariant !firstTime ==> WellShaped(CoeffsOf(states))
                               && PickStableDim(CoeffsOf(states), tol) == -1
      invariant firstTime ==> states == Start(coeffs, top)
      invariant !firstTime ==> forall k :: 0 <= k < |coeffs| && FirstPassTrims(coeffs[k], top, approxTol)
                                           ==> states[k].degree < top
      decreases SumDegrees(states), if firstTime then 1 else 0
    {
      PassPreserves(coeffs, top, states, approxTol);
      Finish(coeffs, top, states, approxTol, firstTime);
      var next := Pass(states, approxTol);
      if !Changed(states, next) && !firstTime {
        return CoeffsOf(next), -1, Degrees(next), Errors(next);
      }
      var d := PickStableDim(CoeffsOf(next), tol);
      if d >= 0 {
        return CoeffsOf(next), d, Degrees(next), Errors(next);
      }
      PassKeepsProgress(coeffs, top, states, approxTol, firstTime);
      states := next;
      firstTime := false;
    }
  }

  function Degrees(states: seq<TrimState>): (ds: seq<nat>)
    ensures |ds| == |states|
    ensures forall k :: 0 <= k < |states| ==> ds[k] == states[k].degree
  {
    seq(|states|, k requires 0 <= k < |states| => states[k].degree)
  }

  function Errors(states: seq<TrimState>): (es: seq<real>)
    ensures |es| == |states|
    ensures forall k :: 0 <= k < |states| ==> es[k] == states[k].error
  {
    seq(|states|, k requires 0 <= k < |states| => states[k].error)
  }
}
